=== FILE: README.md ===
# bud build tool core, modelled in Dafny

bud is a C# build tool. A build is described as configuration: keys are
defined, initialised or modified, scope by scope, and compiled into one flat
table of definitions. Tasks are defined and modified in the same way. Around
that core sit scope values, file lists, a command-line builder, and
resolution of a build script's references.

This project models that core as Dafny datatypes, functions, classes and
methods, and proves what the code promises about it.

- **Configuration.** `Confs` models the immutable builder `Conf` and its
  compilation into a definition table. `SetConfig`, `EnsureInitialized` and
  `ModifyConfigs` model the three kinds of instruction. `Definitions` models
  what a stored definition does when invoked. `Keys` models the key type.
- **Tasks.** `Tasking` models the task table; `NestedTasking` models the
  prefixing view of it.
- **Scopes.** `ScopeTree` holds the scope datatype. `GraphScopes` and
  `BudGraphScopes` model the two scope designs. `BuildUtils` models the
  build-target projections.
- **Utilities.** `Optional` models `Option`, `FileLists` models `Files`, and
  `Cli` models `ProcessBuilder`.
- **Reference resolution.** `FrameworkReferences` models the Windows
  framework-directory resolver, and `Paths` the parts of `System.IO.Path` it
  relies on. `Assemblies` and `BudReferences` model assemblies and
  script-reference resolution; `Projects` models projects.

C# delegates (value factories, modifiers, tasks) are modelled as symbolic
values: a constant, or a name. What a named delegate computes is passed as an
interpretation function. A definition's behaviour has two parts:
- `Definitions.Calls`: which delegates one invocation runs, in which order,
  and with which configuration view;
- `Definitions.Eval`: the value that invocation returns.

Mutable state is modelled as Dafny classes. The definition table being
compiled, the `ProcessBuilder`'s argument buffer, and the resolver's
dictionary and set are classes whose methods are proved against pure
specification functions.

Some operations use a different C# integer width or error mechanism; the
model makes these explicit:
- Hash codes are `bv32`, so unchecked multiplication wraps.
- A null argument to `Equals(object)` is `None`; other null arguments are not modelled.
- Exceptions are `Result` errors.

## Model

| member | source | states |
|---|---|---|
| Keys.ToId | Bud/Key.cs:13 | the key's id; `IdRoundTrip` shows it inverts the conversion from a string |
| Keys.FromId | Bud/Key.cs:7-11 | a key built from a string carries exactly that id and the key's type |
| Keys.IdRoundTrip | Bud/Key.cs:11-13 | converting a string to a key and back gives the string, and a key to its id and back gives the key |
| Keys.Lookup | Bud/Key.cs:15 | the indexer returns what `configs.Get` returns for that same key |
| Keys.Nest | Bud/Key.cs:17 | `prefix / key` has id `prefix`, then '/', then the key's id, and names the same type |
| Keys.NestTwice | Bud/Key.cs:17 | `a / (b / k)` has id `a/b/k` |
| Keys.QualifiedAppend | Bud/Key.cs:17 | qualifying under the directories `d1 + d2` is qualifying under `d2` and then under `d1` |
| Keys.QualifiedIsPrefixed | Bud/Key.cs:17 | nesting a key under each directory segment equals prefixing its id with every segment followed by '/' |
| Definitions.BaseFactoryRunsOnceFirst | Bud/Configuration/ModifyConfig.cs:16-19 | however many modifiers wrap a definition, an invocation calls its original factory exactly once, first, and then only modifiers, one per wrapper |
| Definitions.ConstantIgnoresConf | Bud/Conf.cs:22-23 | a value factory `cfg => value` yields `value` whatever configuration it receives |
| Definitions.DefinitionTable.Put | bud/Configuration/SetConf.cs:22 | storing a definition replaces the key's entry and leaves every other key alone |
| SetConfig.DefineConfIn | bud/Configuration/SetConf.cs:17-23 | the table afterwards holds, under the key qualified by the current directory, a definition scoped to that directory; nothing else changes |
| SetConfig.ApplyIn | bud/Configuration/SetConf.cs:12-13 | applying a `SetConf` defines its own key with its own factory in the current directory |
| SetConfig.DefinedOverwrites | bud/Configuration/SetConf.cs:17-23 | after a set, the qualified key holds the new definition whatever it held before, and every other path keeps its entry |
| SetConfig.SecondSetWins | bud/Configuration/SetConf.cs:17-23 | setting the same key twice leaves only the second definition |
| SetConfig.DefinitionCallsFactoryOnceInItsDirectory | bud/Configuration/SetConf.cs:18-21 | each invocation of the stored definition calls the factory exactly once, on a configuration scoped to the directory current at definition time |
| EnsureInitialized.FromFactory | budApi/SettingsConstruction/Ops/EnsureConfigInitialized.cs:10-12 | the instruction keeps the key and the initial-value factory |
| EnsureInitialized.FromValue | budApi/SettingsConstruction/Ops/EnsureConfigInitialized.cs:8 | the value constructor is the factory constructor with the constant factory |
| EnsureInitialized.ApplyTo | budApi/SettingsConstruction/Ops/EnsureConfigInitialized.cs:14-18 | the table gains the initial definition only when the key was absent |
| EnsureInitialized.InitializedDefinesOnlyIfAbsent | budApi/SettingsConstruction/Ops/EnsureConfigInitialized.cs:14-18 | an absent key is defined afterwards, a present key keeps its definition, and no other key changes |
| EnsureInitialized.FirstWriterWins | budApi/SettingsConstruction/Ops/EnsureConfigInitialized.cs:14-18 | a second initialisation of a key, with any definition, changes nothing |
| EnsureInitialized.InitializedIdempotent | budApi/SettingsConstruction/Ops/EnsureConfigInitialized.cs:14-18 | applying the same initialisation twice is applying it once |
| EnsureInitialized.ValueInitialisationEvaluatesToValue | budApi/SettingsConstruction/Ops/EnsureConfigInitialized.cs:8-18 | a key initialised from a value evaluates to that value on every configuration |
| ModifyConfigs.Make | Bud/Configuration/ModifyConfig.cs:7-11 | with a prefix the stored key is the plain concatenation `prefix + key`; without one it is the key |
| ModifyConfigs.New | Bud/Configuration/ModifyConfig.cs:5 | the public constructor has no prefix and keeps the key as given |
| ModifyConfigs.Nest | Bud/Configuration/ModifyConfig.cs:21 | nesting keeps the modifier, records the parent key as prefix and prepends it to the key |
| ModifyConfigs.Modify | Bud/Configuration/ModifyConfig.cs:16-19 | on every invocation the new definition runs the previous one with the same configuration, then the modifier once, on a configuration nested under the prefix if there is one |
| ModifyConfigs.ModifyAppliesModifierToPrevious | Bud/Configuration/ModifyConfig.cs:16-19 | the modified definition returns the modifier applied to the previous definition's value |
| ModifyConfigs.ToConfigDefinition | Bud/Configuration/ModifyConfig.cs:23-25 | a modification with nothing to modify always fails, naming the key |
| ModifyConfigs.Transform | Bud/Configuration/ModifyConfig.cs:16-25 | applying the modification succeeds exactly when the key is defined, and then replaces that definition with its modification |
| ModifyConfigs.NestTwiceKeepsOuterPrefix | Bud/Configuration/ModifyConfig.cs:21 | nesting twice accumulates both prefixes in the key but hands the modifier only the outer one |
| ModifyConfigs.NestUnderDirectory | Bud/Configuration/ModifyConfig.cs:8 | prefixing with a directory's '/'-terminated path stores under the key qualified by that directory |
| Confs.Empty | Bud/Conf.cs:9 | the empty conf has no instructions and an empty scope |
| Confs.In | Bud/Conf.cs:73-74 | `In` keeps the instructions and pushes the directory onto the scope |
| Confs.Out | Bud/Conf.cs:79-84 | `Out` fails exactly when the scope is empty, and otherwise pops its last directory, keeping the instructions |
| Confs.OutAfterIn | Bud/Conf.cs:73-84 | `Out` undoes `In` |
| Confs.MakeScopedConfBuilder | Bud/Conf.cs:116-117 | an added instruction is tagged with the conf's current scope |
| Confs.Add | Bud/Conf.cs:60-62 | adding keeps the existing instructions as a prefix and appends each new one, tagged with the current scope, in order |
| Confs.AddAssociates | Bud/Conf.cs:60-62 | adding two lists one after the other is adding their concatenation |
| Confs.Set | Bud/Conf.cs:45-46 | `Set` appends one `SetConf` instruction in the current scope |
| Confs.Init | Bud/Conf.cs:37-38 | `Init` appends one `InitConf` instruction in the current scope |
| Confs.Modify | Bud/Conf.cs:53-54 | `Modify` appends one `ModifyConf` instruction in the current scope |
| Confs.SetValue | Bud/Conf.cs:22-23 | `SetValue` is `Set` with the constant factory |
| Confs.InitValue | Bud/Conf.cs:29-30 | `InitValue` is `Init` with the constant factory |
| Confs.InConf | Bud/Conf.cs:107-108 | `InConf` is an empty conf whose scope is the one directory |
| Confs.InConfIsEmptyIn | Bud/Conf.cs:107-108 | `InConf(s)` equals `Empty.In(s)` |
| Confs.New | Bud/Conf.cs:110-114 | `New` adds the instructions to the empty conf |
| Confs.ModifyIn | Bud/Conf.cs:94-99 | a modification replayed in a directory targets the key qualified by that directory |
| Confs.ApplyPrimitive | Bud/Conf.cs:94-99 | one instruction changes the table as the replay step says, or reports its failure |
| Confs.ApplyEntry | Bud/Conf.cs:95-98 | one recorded instruction (a nested conf replaying all of its own) changes the table as the replay of its primitives says |
| Confs.ApplyIn | Bud/Conf.cs:94-99 | replaying every instruction in order, each under its recorded scope, leaves the table the specification replay gives, stopping at the first failure |
| Confs.ToCompiled | Bud/Conf.cs:101-105 | compiling from an empty table gives the specification's compiled table or its first failure |
| Confs.CompileSet | Bud/Conf.cs:40-46 | compiling after a `Set` overwrites the qualified key with the new scoped definition and keeps everything else |
| Confs.CompileInitKeepsFirst | Bud/Conf.cs:32-38 | a second `Init` of the same key leaves the compiled table as the first one left it |
| Confs.CompileModifyUndefinedFails | Core/src/test/cs/SettingsConstruction/SettingConstructionTest.cs:30-32 | modifying a key that nothing defines makes compilation fail, naming the key |
| Confs.InitThenModifyGivesFoobar | Core/src/test/cs/SettingsConstruction/SettingConstructionTest.cs:35-40 | initialising to "foo" and modifying with "append bar" evaluates to "foobar" |
| Confs.NestedConfReplaysInScope | Bud/Conf.cs:94-99 | for any directory, key and value: a conf setting the key, added inside that directory, compiles to the key qualified by the directory, scoped there |
| Tasking.Empty | Bud.Core/src/main/cs/Tasking/Tasks.cs:7 | the empty task table defines no task |
| Tasking.EmptyDefinesNothing | Bud.Core/src/main/cs/Tasking/Tasks.cs:7 | looking up any task in the empty table finds nothing |
| Tasking.AssertTaskTypeNotOverridden | Bud.Core/src/main/cs/Tasking/Tasks.cs:41-45 | redefinition fails exactly when the return type differs, and the error names both types |
| Tasking.Set | Bud.Core/src/main/cs/Tasking/Tasks.cs:14-20 | setting succeeds exactly when the task is new or keeps its type, and then replaces only that task |
| Tasking.Modify | Bud.Core/src/main/cs/Tasking/Tasks.cs:22-29 | modifying succeeds exactly when the task exists with the same type; an undefined task and a type change are distinct errors; success wraps the old task in the modifier |
| Tasking.TryGetTask | Bud.Core/src/main/cs/Tasking/Tasks.cs:31-39 | the lookup succeeds exactly for a defined task and returns its definition; otherwise it returns none |
| Tasking.Runs | Bud.Core/src/main/cs/Tasking/Tasks.cs:47-58 | the delegates one invocation runs: a plain task runs itself, a modified one runs its original and then its modifier; `OriginalRunsOnceFirst` gives the closed form |
| Tasking.Evaluate | Bud.Core/src/main/cs/Tasking/Tasks.cs:47-58 | a modified task's result is its modifier applied to the original's result, `ctx => modifierTask(ctx, originalTask(ctx))`; `SetThenModify` states it for a set then a modify |
| Tasking.OriginalRunsOnceFirst | Bud.Core/src/main/cs/Tasking/Tasks.cs:52-54 | a modified task runs its original task exactly once, first, and then only modifiers |
| Tasking.SetThenGet | Bud.Core/src/main/cs/Tasking/Tasks.cs:14-39 | after a set the task is found with the new definition, and every other task is found as before |
| Tasking.SetThenModify | Bud.Core/src/main/cs/Tasking/Tasks.cs:14-29 | a set task can be modified with the same type, and evaluates to the modifier applied to the original |
| Tasking.TypeIsFixedOnceDefined | Bud.Core/src/main/cs/Tasking/Tasks.cs:14-29 | once defined, neither set nor modify can change a task's type |
| NestedTasking.NewNestedTasks | Bud.Core/src/main/cs/Tasking/NestedTasks.cs:8-11 | the stored prefix is the given prefix followed by '/' |
| NestedTasking.QueriedNameIsPrefixed | Bud.Core/src/main/cs/Tasking/NestedTasks.cs:13-14 | through any chain of nested views, the queried name is every prefix from the outermost in, then the task name |
| NestedTasking.Get | Bud.Core/src/main/cs/Tasking/NestedTasks.cs:13 | the typed lookup asks the underlying tasks for the prefixed key |
| NestedTasking.GetUntyped | Bud.Core/src/main/cs/Tasking/NestedTasks.cs:14 | the untyped lookup asks the underlying tasks for the prefixed name |
| NestedTasking.NestedTwice | Bud.Core/src/main/cs/Tasking/NestedTasks.cs:8-14 | a view with prefix "a" over a view with prefix "b" looks up "b/a/name" |
| ScopeTree.Parent | Graph/Scope.cs:18-19 | only the root is its own parent |
| ScopeTree.Depth | Graph/Scope.cs:21 | the depth is at least 1 and equals 1 only for the root |
| ScopeTree.WithParent | Graph/Scope.cs:18-21 | a new scope has the given id and parent, one level deeper |
| ScopeTree.New | Graph/Scope.cs:15-16 | a scope built from an id alone is a child of the root |
| ScopeTree.Ids | Graph/Scope.cs:9-21 | the id chain starts at "Global", ends at the scope's id, and has the scope's depth as length |
| ScopeTree.IdsInjective | Graph/Scope.cs:45-53 | two scopes with the same id chain are the same scope |
| ScopeTree.Equals | Graph/Scope.cs:45-53 | the recursive comparison holds exactly for structurally equal scopes, so independently built clones compare equal |
| ScopeTree.EqualsIffSameIds | budGraph/Scope.cs:38-46 | two scopes are equal exactly when their id chains are |
| ScopeTree.Hash | Graph/Scope.cs:22-24 | the parent's hash (the seed -1498327287 for the root) XOR the id's hash; `HashFoldsIds` gives its closed form |
| ScopeTree.HashFoldsIds | Graph/Scope.cs:22-24 | the hash is the root seed XOR-ed with the hash of every id in the chain |
| ScopeTree.EqualScopesHashEqually | Graph/Scope.cs:65-67 | equal scopes have equal hash codes |
| ScopeTree.JoinColonSnoc | Graph/Scope.cs:73-75 | rendering one more id appends ':' and that id |
| ScopeTree.AppendAsString | Graph/Scope.cs:73-75 | the parent's rendering, ':' and the id; `AppendAsStringJoinsIds` gives its closed form |
| ScopeTree.AppendAsStringJoinsIds | Graph/Scope.cs:73-75 | the recursive rendering is the ids from the root down, joined with ':' |
| ScopeTree.ToString | Graph/Scope.cs:69-71 | the root renders as its id, any other scope through `AppendAsString` (the same in budGraph/Scope.cs); `ToStringJoinsIds` gives the closed form |
| ScopeTree.ToStringJoinsIds | Graph/Scope.cs:69-75 | a scope renders as its ids from the root down, joined with ':' |
| GraphScopes.IsGlobal | Graph/Scope.cs:27-29 | being one's own parent; `IsGlobalOnlyForRoot` shows only the root is |
| GraphScopes.IsGlobalOnlyForRoot | Graph/Scope.cs:27-29 | being one's own parent identifies the root |
| GraphScopes.Concat | Graph/Scope.cs:35-43 | the depth of a concatenation is the sum of the two depths less the shared root |
| GraphScopes.IdsAreRootThenBelow | Graph/Scope.cs:35-43 | every id chain is the root's id followed by the ids below the root |
| GraphScopes.BelowDropsRoot | Graph/Scope.cs:35-43 | the ids below the root are the id chain without its first element |
| GraphScopes.ConcatIds | Graph/Scope.cs:35-43 | the child's non-root ids are re-rooted under the parent scope: the ids are the parent's followed by the child's below its root |
| GraphScopes.BelowConcat | Graph/Scope.cs:35-43 | below the root, a concatenation holds the parent's ids and then the child's |
| GraphScopes.ConcatWithRoot | Graph/Scope.cs:35-43 | the root is a unit of concatenation on both sides |
| GraphScopes.ConcatAssociative | Graph/Scope.cs:35-43 | concatenation is associative |
| GraphScopes.In | Graph/Scope.cs:31-33 | placing a scope in a parent prepends the parent's id chain |
| GraphScopes.InNewIsChild | Graph/Scope.cs:31-43 | a fresh scope placed in a non-root scope becomes a child of that scope |
| GraphScopes.DeepNestingRendersEveryId | budGraphTests/SettingKeyTest.cs:96-100 | A in E in D in foo in C in B renders as "Global:B:C:foo:D:E:A" |
| BudGraphScopes.IsGlobal | budGraph/Scope.cs:27-29 | being the root instance; `IsGlobalIffOwnParent` relates it to the parent |
| BudGraphScopes.IsGlobalIffOwnParent | budGraph/Scope.cs:27-29 | being the root instance coincides with being one's own parent |
| BudGraphScopes.In | budGraph/Scope.cs:31-36 | the result keeps the scope's id with the given parent; it is the scope itself when that parent is already its parent |
| BudGraphScopes.InReplacesParent | budGraph/Scope.cs:31-36 | the old parent is dropped: "y" under "x", placed in "p", is "y" under "p" |
| BudGraphScopes.InIdempotent | budGraph/Scope.cs:31-36 | placing a scope twice in the same parent is placing it once |
| BuildUtils.ProjectOf | Core/src/main/cs/Build/BuildUtils.cs:3-5 | the project is the target's id chain without its last two ids |
| BuildUtils.ScopeOf | Core/src/main/cs/Build/BuildUtils.cs:7-9 | the scope is the target's id chain without its last id |
| BuildUtils.LanguageOf | Core/src/main/cs/Build/BuildUtils.cs:17-19 | the language is the target itself |
| BuildUtils.IdOf | Core/src/main/cs/Build/BuildUtils.cs:11-15 | the id is the project's for the main scope, and otherwise the project's id, '.', and the rendered scope |
| BuildUtils.ProjectionsOfTarget | Core/src/main/cs/Build/BuildUtils.cs:3-19 | for a target `project / scope / language` the projections give back the three parts |
| Optional.GetOrElse | bud/Util/Option.cs:17 | the value when present, the default otherwise |
| Optional.GetOrElseLazy | bud/Util/Option.cs:18 | the same result as the eager form, and the default factory is called exactly when the option is empty |
| Optional.HasValue | bud/Util/Option.cs:10 | presence of a value; `Equals` and `Hash` below are stated through it |
| Optional.RawValue | bud/Util/Option.cs:9 | the wrapped value when present, `default(T)` for an empty option: `GetOrElse` with the default value |
| Optional.OrElse | bud/Util/Option.cs:20-21 | a present option is kept; otherwise the alternative itself is the result |
| Optional.OrElseNoneUnit | bud/Util/Option.cs:21 | an empty option is a unit of `OrElse` on both sides |
| Optional.OrElseAssociative | bud/Util/Option.cs:21 | chained alternatives give the first present option however they are grouped |
| Optional.OrElseThenGetOrElse | bud/Util/Option.cs:17-21 | falling back to a value and unwrapping is unwrapping with that value as the default |
| Optional.OrElseLazy | bud/Util/Option.cs:22-23 | the same result as the eager form, and the alternative factory is called exactly when the option is empty |
| Optional.Map | bud/Util/Option.cs:25-26 | mapping keeps presence and applies the function to a present value |
| Optional.MapThenGetOrElse | bud/Util/Option.cs:17-26 | mapping then defaulting to `f(d)` is defaulting to `d` then applying `f` |
| Optional.MapComposes | bud/Util/Option.cs:25-26 | mapping twice is mapping with the composition |
| Optional.Equals | bud/Util/Option.cs:28-30 | two options are equal exactly when they are the same value |
| Optional.NonesAreEqual | bud/Util/Option.cs:28-30 | any two empty options are equal |
| Optional.Hash | bud/Util/Option.cs:37-41 | an empty option hashes as its default value, a present one as 397 (true's hash times 397) XOR its value's hash |
| Optional.EqualOptionsHashEqually | bud/Util/Option.cs:37-41 | equal options have equal hash codes |
| Optional.Gather | bud/Util/Option.cs:56-58 | the gathered values are exactly the present values, no more of them than options |
| Optional.GatherAppend | bud/Util/Option.cs:56-58 | gathering distributes over concatenation, so order is kept |
| Optional.GatherAllPresent | bud/Util/Option.cs:56-58 | gathering only present values gives them back in order |
| Optional.GatherAllAbsent | bud/Util/Option.cs:56-58 | gathering only empty options gives nothing |
| Optional.Select | bud/Util/Option.cs:62 | one selector result per element, in order |
| Optional.GatherWith | bud/Util/Option.cs:60-62 | it is `Select(selector)` followed by `Gather()`: every gathered value comes from a selected element, and every present selection is gathered |
| Optional.GatherWithSingle | bud/Util/Option.cs:60-62 | one element gives its selected value if there is one, and nothing otherwise |
| Optional.GatherWithAppend | bud/Util/Option.cs:60-62 | gathering with a selector distributes over concatenation, so order and multiplicity are kept |
| FileLists.Enumerate | Bud/IO/Files.cs:21 | the entries in order; the operations below are stated through it |
| FileLists.Empty | Bud/IO/Files.cs:10 | the empty file list enumerates nothing |
| FileLists.FromTimestamped | Bud/IO/Files.cs:13-15 | a list built from timestamped files enumerates them |
| FileLists.ToTimestampedFile | Bud/IO/Files.cs:27-28 | a file is paired with its last write time |
| FileLists.Create | Bud/IO/Files.cs:17-19 | a list built from paths enumerates each path, in order, with its last write time |
| FileLists.ExpandWith | Bud/IO/Files.cs:30-31 | expanding enumerates this list's files, then the other's |
| FileLists.Where | Bud/IO/Files.cs:33-34 | filtering keeps exactly the elements that pass |
| FileLists.Filter | Bud/IO/Files.cs:33-34 | a filtered list holds exactly the files that pass the filter |
| FileLists.WhereDistributes | Bud/IO/Files.cs:33-34 | filtering distributes over concatenation |
| FileLists.FilterDistributesOverExpandWith | Bud/IO/Files.cs:30-34 | filtering an expanded list is expanding the filtered lists |
| FileLists.WhereComposes | Bud/IO/Files.cs:33-34 | filtering twice is filtering with the conjunction |
| FileLists.FilterIdempotent | Bud/IO/Files.cs:33-34 | filtering twice with the same filter is filtering once |
| FileLists.WhereSameFilter | Bud/IO/Files.cs:33-34 | filters that agree everywhere filter alike |
| FileLists.WhereAll | Bud/IO/Files.cs:33-34 | a filter every element passes keeps the whole list |
| Cli.ProcessBuilder.constructor | Bud.Core/src/main/cs/Cli/ProcessBuilder.cs:15-17 | a new builder has the executable and no arguments |
| Cli.ProcessBuilder.Executable | Bud.Core/src/main/cs/Cli/ProcessBuilder.cs:11-13 | the factory returns a fresh builder for the executable with no arguments |
| Cli.ProcessBuilder.Arguments | Bud.Core/src/main/cs/Cli/ProcessBuilder.cs:21 | the argument text accumulated so far; the methods below state how each call extends it |
| Cli.ProcessBuilder.AddParamArgument | Bud.Core/src/main/cs/Cli/ProcessBuilder.cs:27-41 | the argument text gains a separating space if non-empty, then the quoted head and the comma-joined parameters; the builder returns itself |
| Cli.ProcessBuilder.AddArgument | Bud.Core/src/main/cs/Cli/ProcessBuilder.cs:23 | one argument is appended as a quoted argument without parameters |
| Cli.ProcessBuilder.AddArguments | Bud.Core/src/main/cs/Cli/ProcessBuilder.cs:45-50 | each argument is appended in order, as `AddArgument` would |
| Cli.JoinParamsSnoc | Bud.Core/src/main/cs/Cli/ProcessBuilder.cs:33-38 | one more parameter adds ',' and that parameter |
| Cli.AppendedExtends | Bud.Core/src/main/cs/Cli/ProcessBuilder.cs:27-41 | appending an argument keeps the existing text as a prefix and makes it longer |
| Cli.AppendedAllAppend | Bud.Core/src/main/cs/Cli/ProcessBuilder.cs:45-50 | adding two lists of arguments one after the other is adding their concatenation |
| Cli.AppendedAllExtends | Bud.Core/src/main/cs/Cli/ProcessBuilder.cs:45-50 | adding arguments never changes the text already there |
| Cli.TwoArgumentsExample | Bud.Core/src/main/cs/Cli/ProcessBuilder.cs:23-41 | "a" then "/r:" with "x", "y" renders as `"a" "/r:x,y"` |
| Paths.FileName | Libs/Bud.References/Assembly.cs:12 | the file name is a separator-free suffix of the path |
| Paths.FileNameWithoutExtension | Libs/Bud.References/Assembly.cs:12 | the file name with its last extension dropped; `FileNameWithoutExtensionRoundTrip` shows `dir\name.ext` gives `name` |
| Paths.BeforeLastDot | Libs/Bud.References/Assembly.cs:11-12 | the part before the last '.' is a proper prefix followed by '.', with no '.' after it |
| Paths.FileNameAfterSeparator | Libs/Bud.References/Assembly.cs:11-12 | the file name of a directory, a separator and a bare name is that name |
| Paths.BeforeLastDotOfExtension | Libs/Bud.References/Assembly.cs:11-12 | dropping the extension of `name.ext` gives `name` |
| Paths.FileNameWithoutExtensionRoundTrip | Libs/Bud.References/Assembly.cs:11-12 | `dir\name.ext` gives `name` without its extension |
| Paths.Combine | Libs/Bud.References/WindowsFrameworkReferenceResolver.cs:28 | an empty name gives the directory unchanged; a rooted name, or an empty directory, gives the name; otherwise the directory and the name, with a '\' between them unless the directory ends in a separator |
| FrameworkReferences.CompareVersions | Libs/Bud.References/WindowsFrameworkReferenceResolver.cs:99 | version comparison is zero exactly for equal versions and gives a sign |
| FrameworkReferences.CompareVersionsAntisymmetric | Libs/Bud.References/WindowsFrameworkReferenceResolver.cs:99 | swapping the versions negates the comparison |
| FrameworkReferences.CompareVersionsTransitive | Libs/Bud.References/WindowsFrameworkReferenceResolver.cs:99 | version order is transitive |
| FrameworkReferences.AtMostMaxVersion | Libs/Bud.References/WindowsFrameworkReferenceResolver.cs:22-24 | every valid version is at most the all-`int.MaxValue` version |
| FrameworkReferences.CompareOrdinal | Libs/Bud.References/WindowsFrameworkReferenceResolver.cs:101 | ordinal string comparison gives a sign |
| FrameworkReferences.CompareOrdinalProperties | Libs/Bud.References/WindowsFrameworkReferenceResolver.cs:101 | ordinal comparison is zero exactly for equal strings and antisymmetric |
| FrameworkReferences.CompareOrdinalTransitive | Libs/Bud.References/WindowsFrameworkReferenceResolver.cs:101 | ordinal order is transitive |
| FrameworkReferences.PrefixSortsFirst | Libs/Bud.References/WindowsFrameworkReferenceResolver.cs:101 | a proper prefix sorts before the longer string |
| FrameworkReferences.Compare | Libs/Bud.References/WindowsFrameworkReferenceResolver.cs:97-105 | directories compare equal only when identical; a higher version sorts first |
| FrameworkReferences.CompareAntisymmetric | Libs/Bud.References/WindowsFrameworkReferenceResolver.cs:97-105 | swapping the directories negates the comparison |
| FrameworkReferences.CompareTransitive | Libs/Bud.References/WindowsFrameworkReferenceResolver.cs:97-105 | the directory order is transitive, so it is a strict total order |
| FrameworkReferences.FacadesFirst | Libs/Bud.References/WindowsFrameworkReferenceResolver.cs:97-105 | for the same version, `dir\Facades` sorts before `dir` |
| FrameworkReferences.ConsSorted | Libs/Bud.References/WindowsFrameworkReferenceResolver.cs:60-61 | an entry ordered before every entry of a sorted set may be put in front of it |
| FrameworkReferences.Insert | Libs/Bud.References/WindowsFrameworkReferenceResolver.cs:60-61 | inserting into a sorted set keeps it sorted and adds exactly the new element |
| FrameworkReferences.ToSortedSet | Libs/Bud.References/WindowsFrameworkReferenceResolver.cs:60-61 | the framework directories are exactly the listed ones that exist, strictly sorted, duplicates collapsed |
| FrameworkReferences.SortedByDescendingVersion | Libs/Bud.References.Test/WindowsResolverTest.cs:132-136 | in the sorted directories every earlier version is at least every later one |
| FrameworkReferences.EffectiveVersion | Libs/Bud.References/WindowsFrameworkReferenceResolver.cs:22-24 | a requested major version 0 stands for the maximal version |
| FrameworkReferences.FirstExisting | Libs/Bud.References/WindowsFrameworkReferenceResolver.cs:26-29 | the first eligible directory's `dir\dll` that exists; `FirstExistingIsFirst` characterises it |
| FrameworkReferences.FirstExistingNoneIffNoHolder | Libs/Bud.References/WindowsFrameworkReferenceResolver.cs:26-30 | the search comes back empty exactly when no eligible directory holds the dll |
| FrameworkReferences.FirstExistingSomeIsFirstHolder | Libs/Bud.References/WindowsFrameworkReferenceResolver.cs:26-30 | a path found lies in the first eligible directory holding the dll |
| FrameworkReferences.FirstExistingIsFirst | Libs/Bud.References/WindowsFrameworkReferenceResolver.cs:26-30 | the search finds nothing exactly when no eligible directory holds the dll, and otherwise the first one that does |
| FrameworkReferences.ResolveFrameworkAssembly | Libs/Bud.References/WindowsFrameworkReferenceResolver.cs:21-31 | the result is the dll path in the first directory, in order, that is eligible for the version and holds the dll; none when no such directory exists |
| FrameworkReferences.AnyVersionMakesEveryDirEligible | Libs/Bud.References/WindowsFrameworkReferenceResolver.cs:22-27 | asked for any version, every valid directory is eligible |
| FrameworkReferences.AnyVersionSearchesEveryDir | Libs/Bud.References.Test/WindowsResolverTest.cs:88-89 | asked for any version, an assembly is found exactly when some directory holds it |
| FrameworkReferences.SortedSetPutsFacadesFirst | Libs/Bud.References/WindowsFrameworkReferenceResolver.cs:44-61 | for a set holding only a version's directory and its Facades directory, the facade comes first |
| FrameworkReferences.FacadeBeforeOwn | Libs/Bud.References/WindowsFrameworkReferenceResolver.cs:44-61 | in any sorted set, a version's Facades directory sits before the version's own directory (other directories of that version may lie between) |
| FrameworkReferences.FacadeWins | Libs/Bud.References.Test/WindowsResolverTest.cs:43-45 | for a set holding only a version's directory and its Facades directory, when the facade holds the dll the facade path is returned even if the own directory holds it too |
| FrameworkReferences.FacadeWinsOverOwn | Libs/Bud.References/WindowsFrameworkReferenceResolver.cs:26-29 | in any sorted set, when an eligible Facades directory holds the dll, the path comes from it or from a directory before it, never from the version's own directory |
| FrameworkReferences.IsFrameworkAssembly | Libs/Bud.References/WindowsFrameworkReferenceResolver.cs:33-34 | true exactly when some framework directory holds the file as named, with no version filter |
| FrameworkReferences.EmptyNameProbesDirs | Libs/Bud.References/WindowsFrameworkReferenceResolver.cs:33-34 | with an empty name the test asks whether some framework directory path itself exists |
| FrameworkReferences.ResolvedIsFrameworkAssembly | Libs/Bud.References/WindowsFrameworkReferenceResolver.cs:21-34 | an assembly that resolves is a framework assembly under its dll name |
| Assemblies.New | Libs/Bud.References/Assembly.cs:6-9 | the constructor stores the name and the path unchanged |
| Assemblies.FromPath | Libs/Bud.References/Assembly.cs:11-12 | keeps the whole path, is named by the file name without its extension, and has the constructor's type |
| Assemblies.FromPathNamesByFile | Libs/Bud.References/Assembly.cs:11-12 | an assembly from `dir\name.ext` is named `name` and keeps the whole path |
| Assemblies.Equals | Libs/Bud.References/Assembly.cs:14-28 | false for null; otherwise true exactly for the same type, name and path |
| Assemblies.EqualsIsEquivalence | Libs/Bud.References/Assembly.cs:14-28 | assembly equality is reflexive, symmetric and transitive |
| Assemblies.Hash | Libs/Bud.References/Assembly.cs:30-34 | the bv32 mix `(h(name) * 397) ^ h(path)`; the lemmas below show it agrees with `Equals` |
| Assemblies.EqualAssembliesHashEqually | Libs/Bud.References/Assembly.cs:30-34 | equal assemblies have equal hash codes |
| Assemblies.HashIgnoresRuntimeType | Libs/Bud.References/Assembly.cs:24-34 | the hash depends on name and path only; instances of different types are never equal |
| Assemblies.ToString | Libs/Bud.References/Assembly.cs:36 | the rendering is 24 characters longer than name and path together |
| Assemblies.ToStringParts | Libs/Bud.References/Assembly.cs:36 | the name and the path sit at fixed places in the rendering |
| Assemblies.ToStringDeterminesNameAndPath | Libs/Bud.References/Assembly.cs:36 | renderings with same-length names are equal only for equal names and paths |
| BudReferences.ResolveAll | Libs/Bud.Scripting/BudReferenceResolver.cs:22-40 | resolution only adds entries, never overwriting one; a reported duplicate name is one already recorded |
| BudReferences.FileKey | Libs/Bud.Scripting/BudReferenceResolver.cs:35 | the key of a file reference, its file name without extension; `SameFileNameTwiceFails` shows two files sharing it collide |
| BudReferences.EveryReferenceAccounted | Libs/Bud.Scripting/BudReferenceResolver.cs:25-39 | after a successful resolution every reference is recorded: bud assemblies by name, existing files by file name without extension, anything else as a framework assembly |
| BudReferences.NewBudAssemblyBringsItsReferences | Libs/Bud.Scripting/BudReferenceResolver.cs:31-33 | a bud assembly met for the first time is recorded with its location, and every assembly it references is resolved too |
| BudReferences.SameFileNameTwiceFails | Libs/Bud.Scripting/BudReferenceResolver.cs:34-35 | for any two directories and any bare name and extension, two existing files `dir\name.ext` that are not bud assemblies make the second `Add` fail on `name` |
| BudReferences.AssemblyDictionary.constructor | Libs/Bud.Scripting/BudReferenceResolver.cs:15 | a new dictionary is empty |
| BudReferences.AssemblyDictionary.Add | Libs/Bud.Scripting/BudReferenceResolver.cs:32-35 | adding succeeds exactly for a new key and then stores it; a present key is refused and nothing changes |
| BudReferences.NameSet.constructor | Libs/Bud.Scripting/BudReferenceResolver.cs:16 | a new set is empty |
| BudReferences.NameSet.Add | Libs/Bud.Scripting/BudReferenceResolver.cs:37 | adding a name adds it, idempotently |
| BudReferences.ResolveInto | Libs/Bud.Scripting/BudReferenceResolver.cs:22-40 | the dictionary and the set end up as the specification resolution says, and the failure it reports is the one the specification reports |
| BudReferences.ToResolved | Libs/Bud.Scripting/BudReferenceResolver.cs:18-19 | one assembly per dictionary entry with that name and path, and one framework assembly at the maximal version per framework name |
| BudReferences.Resolve | Libs/Bud.Scripting/BudReferenceResolver.cs:14-20 | resolving into fresh collections gives the specification's outcome and, on success, the corresponding resolved references |
| Projects.New | budApi/Plugins/Projects/Project.cs:12-15 | the constructor stores the id and the base directory unchanged |
| Projects.EqualsAsWritten | budApi/Plugins/Projects/Project.cs:21-23 | as written, comparing with null raises, and only null does |
| Projects.EqualsNullRaises | budApi/Plugins/Projects/Project.cs:21-23 | every project raises when compared with null |
| Projects.Equals | budApi/Plugins/Projects/Project.cs:21-23 | corrected: false for null; on any other argument the same answer as the code as written, which is true exactly when the argument has the same run-time type and id, whatever its base directory |
| Projects.OtherTypeIsUnequal | budApi/Plugins/Projects/Project.cs:21-23 | a project of another run-time type is unequal, as written and corrected, even with the same id |
| Projects.EqualsIsEquivalence | budApi/Plugins/Projects/Project.cs:21-23 | project equality is reflexive, symmetric and transitive |
| Projects.EqualsIgnoresBaseDir | budApi/Plugins/Projects/Project.cs:21-23 | projects of the same type (both built by the constructor) are equal exactly when their ids are, whatever their base directories |
| Projects.Hash | budApi/Plugins/Projects/Project.cs:17-19 | the hash of the id alone; `EqualProjectsHashEqually` shows it agrees with `Equals` |
| Projects.EqualProjectsHashEqually | budApi/Plugins/Projects/Project.cs:17-19 | equal projects have equal hash codes |
| Projects.ToString | budApi/Plugins/Projects/Project.cs:25-27 | the rendering is 11 characters longer than id and base directory together |
| Projects.ToStringParts | budApi/Plugins/Projects/Project.cs:25-27 | the id and the base directory sit at fixed places in the rendering |
| Projects.ToStringDeterminesIdAndBaseDir | budApi/Plugins/Projects/Project.cs:25-27 | renderings with same-length ids are equal only for equal ids and base directories |

## Left out

- The reactive (Rx) pipeline, `ConfCache`, file watching, NuGet, Roslyn compilation and the command-line front end are outside the modelled core.
- `ProcessBuilder.ToProcess` and `Start` start operating-system processes; they are left out.
- The framework resolver's directory and registry enumeration (`GetFrameworkDirs`, `AddAssemblyFoldersEx`, `CollectAssemblyFolders`) reads the file system and the registry. The model starts from the list it builds; `Directory.Exists` and `File.Exists` are parameters.
- `Conf.Get` and the collection helper `Conf.Add<T>(Key<IEnumerable<T>>, ...)` are left out: reading a value needs `RawConf` and `Keys.InterpretFromScope`, which are not part of this model.
- `Option.ToString` is left out: it renders the run-time generic type name.
- `Option`'s conversion from a bare value and `OrElse(T)` / `OrElse(Func<T>)` are covered by the `Option`-taking forms, after wrapping the value.
- `FileLists.Create` reads each file's last write time once, when the list is built. The source enumerates lazily and re-reads the time on each enumeration; the time is the parameter `lastWriteTime`.
- `FrameworkReferences.CompareOrdinal` models `string.Compare(..., Ordinal)` as a sign (-1, 0 or 1) over Dafny characters, which are Unicode scalar values. .NET compares UTF-16 code units, and the two orders differ between a supplementary-plane character (a surrogate pair, 0xD800-0xDFFF in .NET) and a character in U+E000-U+FFFF; strings holding both are ordered differently here. The source's magnitude is not modelled, and only the sign is used.
- `Paths.Combine` follows the .NET Framework rules for two arguments only (an empty name first, then a rooted name, then an empty directory). The separators are '\', '/' and ':'; invalid-character checks are not modelled.
- `InitConf`, `ModifyConf`, `ScopedDictionaryBuilder`, `DirectoryDictionary`, `ConfigTransform`'s `NestConfig`, `RawConf`, `ScopedConf` and `NestedConf` are not part of this model. Assumptions made for them:
  - `Init` defines a key only when it is absent, scoped like `SetConf`.
  - `Modify` applies a `ModifyConfig` nested under the directory prefix.
  - Nesting appends the scope to the current directory.
  - A directory dictionary stores under the key qualified by its current directory.
  - The views a delegate receives are recorded symbolically, not evaluated.
- The core `Key` class used by `BuildUtils` and `BuildKeys.Main` are not part of this model. Keys are modelled as scope-tree nodes, `IdsEqual` is taken to compare ids, `Main` is given by its id, and the key's string form is the parameter `render`.
- `FrameworkAssembly`, `FrameworkAssembly.MaxVersion` and `ResolvedReferences` are not part of this model. They are modelled as plain records, with the maximal version as a parameter.
- `BudReferences.Resolve` returns its assemblies as sets. The source returns arrays in dictionary enumeration order, which is unspecified.
- The table of bud's own assemblies is built by reflection. It is the parameter `known` of `BudReferences`.
- An exception thrown by `Dictionary.Add` is modelled as a returned duplicate name, and the collections keep what was added before it.
- A second self-parented root, which `new Scope(id, null)` can build in the concatenating design, is not modelled. There is one root, `Global`.
- The reference-equality short-cut of `Scope.Equals` is modelled only for the root. For other scopes it gives the same answer as the structural comparison.
- `Scope.Equals(object)`'s type test is not modelled: every value compared is a scope.
- String hash codes (`string.GetHashCode`) are a parameter; hash codes are modelled as `bv32`.
- Tasks run by the task table are asynchronous in the source. Their results are modelled as plain values, and `Task` objects and scheduling are left out.

## Findings

| source | as written | input that shows it | evidently intended | confidence | as-written member | corrected member |
|---|---|---|---|---|---|---|
| budApi/Plugins/Projects/Project.cs:21-23 | `Equals(object)` calls `GetType()` on its argument before any null test, so comparing a project with null raises a null-reference exception | `new Project("p", "d").Equals(null)` | false for null, as `Object.Equals` requires and as `Assembly.Equals` does | high; not executed | Projects.EqualsNullRaises | Projects.Equals |

=== FILE: assembly.dfy ===
/**
 * A resolved reference to an assembly file (Libs/Bud.References/Assembly.cs):
 * a name and a path, compared by value.
 *
 * The `object` passed to `Equals` is an `Option<Assembly>`, `None` standing for
 * null; `runtimeType` is the run-time type of the instance (the class is not
 * sealed, so a subclass instance may carry the same name and path).
 * `string.GetHashCode` is the parameter `hash`.
 */
module Assemblies {
  import opened Optional
  import Paths

  /** The run-time type name of instances built by the constructor. */
  const AssemblyType: string := "Assembly"

  datatype Assembly = Assembly(runtimeType: string, name: string, path: string)

  /** `new Assembly(name, path)`. */
  function New(name: string, path: string): (r: Assembly)
    ensures r.name == name && r.path == path && r.runtimeType == AssemblyType
  {
    Assembly(AssemblyType, name, path)
  }

  /** `FromPath(path)`: named after the file name of `path` without its extension. */
  function FromPath(path: string): (r: Assembly)
    ensures r.path == path && r.runtimeType == AssemblyType
    ensures r.name == Paths.FileNameWithoutExtension(path)
  {
    New(Paths.FileNameWithoutExtension(path), path)
  }

  /**
   * `Equals(object)`: false for null, true for the same reference, false for
   * another run-time type, and otherwise equal names and equal paths.
   */
  function Equals(a: Assembly, obj: Option<Assembly>): (r: bool)
    ensures obj.None? ==> !r
    ensures obj.Some? ==> (r <==> a == obj.value)
  {
    match obj
    case None => false
    case Some(other) =>
      if other.runtimeType != a.runtimeType then false
      else a.name == other.name && a.path == other.path
  }

  /** Equality of assemblies is reflexive, symmetric and transitive. */
  lemma EqualsIsEquivalence(a: Assembly, b: Assembly, c: Assembly)
    ensures Equals(a, Some(a))
    ensures Equals(a, Some(b)) <==> Equals(b, Some(a))
    ensures Equals(a, Some(b)) && Equals(b, Some(c)) ==> Equals(a, Some(c))
  {
  }

  /** `GetHashCode`: `(hash(Name) * 397) ^ hash(Path)` in unchecked 32-bit arithmetic. */
  function Hash(a: Assembly, hash: string -> bv32): bv32 {
    Combine(hash(a.name), hash(a.path))
  }

  /** The unchecked 32-bit mix of two hash codes, `(h1 * 397) ^ h2`. */
  function Combine(h1: bv32, h2: bv32): bv32 {
    (h1 * 397) ^ h2
  }

  /** Equal assemblies have equal hash codes. */
  lemma EqualAssembliesHashEqually(a: Assembly, b: Assembly, hash: string -> bv32)
    requires Equals(a, Some(b))
    ensures Hash(a, hash) == Hash(b, hash)
  {
  }

  /**
   * The hash code depends on the name and the path alone: instances of
   * different run-time types may share it, though they are never equal.
   */
  lemma HashIgnoresRuntimeType(a: Assembly, b: Assembly, hash: string -> bv32)
    requires a.name == b.name && a.path == b.path
    ensures Hash(a, hash) == Hash(b, hash)
    ensures a.runtimeType != b.runtimeType ==> !Equals(a, Some(b))
  {
  }

  /** `ToString`: "Assembly(Name: n, Path: p)". */
  function ToString(a: Assembly): (r: string)
    ensures |r| == |a.name| + |a.path| + 24
  {
    "Assembly(Name: " + a.name + ", Path: " + a.path + ")"
  }

  /** Where the name and the path sit in the rendering. */
  lemma ToStringParts(a: Assembly)
    ensures ToString(a)[15..15 + |a.name|] == a.name
    ensures ToString(a)[23 + |a.name|..|ToString(a)| - 1] == a.path
  {
  }

  /**
   * Two renderings with names of the same length are equal only for equal
   * names and equal paths.
   */
  lemma ToStringDeterminesNameAndPath(a: Assembly, b: Assembly)
    requires |a.name| == |b.name| && ToString(a) == ToString(b)
    ensures a.name == b.name && a.path == b.path
  {
    ToStringParts(a);
    ToStringParts(b);
  }

  /** An assembly made from `dir\name.ext` is named `name` and keeps the whole path. */
  lemma FromPathNamesByFile(dir: string, name: string, ext: string)
    requires Paths.IsBareName(name) && Paths.IsBareName(ext) && '.' !in ext
    ensures FromPath(dir + "\\" + name + "." + ext) == New(name, dir + "\\" + name + "." + ext)
  {
    Paths.FileNameWithoutExtensionRoundTrip(dir, name, ext);
  }
}

=== FILE: bud_reference_resolver.dfy ===
/**
 * Resolution of a build script's references (Libs/Bud.Scripting/BudReferenceResolver.cs).
 *
 * A reference naming one of bud's own assemblies is recorded under its name
 * with the assembly's location, and the assemblies it references are resolved
 * in turn; a reference to an existing file is recorded under the file's name
 * without extension; anything else is taken to be a framework assembly.
 *
 * The table of bud's own assemblies (a constant built by reflection) is the
 * parameter `known`, each entry giving the location and the referenced
 * assembly names; `File.Exists` is the parameter `fileExists`.
 */
module BudReferences {
  import opened Optional
  import Paths
  import Assemblies
  import FrameworkReferences

  /** One of bud's own assemblies: where it is, and the names of the assemblies it references. */
  datatype BudAssembly = BudAssembly(location: string, referencedNames: seq<string>)

  /** What resolution fills in: assembly name to path, and the framework assembly names. */
  datatype State = State(assemblies: map<string, string>, frameworks: set<string>)

  /**
   * Where resolution stopped: the state it reached, and the name that a
   * `Dictionary.Add` found already present, if it failed on one.
   */
  datatype Outcome = Outcome(state: State, duplicate: Option<string>)

  /** Entries are only added: none is removed or overwritten, and no framework name is dropped. */
  predicate Grows(s: State, s': State) {
    (forall name :: name in s.assemblies ==> name in s'.assemblies && s'.assemblies[name] == s.assemblies[name])
    && s.frameworks <= s'.frameworks
  }

  /** The file name without extension under which a file reference is recorded. */
  function FileKey(reference: string): string {
    Paths.FileNameWithoutExtension(reference)
  }

  /**
   * The recursive `Resolve` over references taken in order, from state `s`.
   * It stops at the first file reference whose name is already recorded.
   */
  function ResolveAll(known: map<string, BudAssembly>, fileExists: string -> bool, references: seq<string>, s: State): (r: Outcome)
    ensures Grows(s, r.state)
    ensures r.duplicate.Some? ==> r.duplicate.value in r.state.assemblies
    decreases known.Keys - s.assemblies.Keys, |references|
  {
    if references == [] then Outcome(s, None)
    else
      var reference := references[0];
      if reference in known then
        if reference in s.assemblies then ResolveAll(known, fileExists, references[1..], s)
        else
          var s1 := s.(assemblies := s.assemblies[reference := known[reference].location]);
          assert reference in known.Keys - s.assemblies.Keys;
          assert known.Keys - s1.assemblies.Keys == known.Keys - s.assemblies.Keys - {reference};
          var inner := ResolveAll(known, fileExists, known[reference].referencedNames, s1);
          if inner.duplicate.Some? then inner
          else ResolveAll(known, fileExists, references[1..], inner.state)
      else if fileExists(reference) then
        var name := FileKey(reference);
        if name in s.assemblies then Outcome(s, Some(name))
        else
          var s1 := s.(assemblies := s.assemblies[name := reference]);
          assert known.Keys - s1.assemblies.Keys <= known.Keys - s.assemblies.Keys;
          ResolveAll(known, fileExists, references[1..], s1)
      else ResolveAll(known, fileExists, references[1..], s.(frameworks := s.frameworks + {reference}))
  }

  /**
   * Where a reference ends up: a bud assembly under its own name, an existing
   * file under its file name without extension, anything else among the
   * framework names.
   */
  predicate Accounted(known: map<string, BudAssembly>, fileExists: string -> bool, reference: string, s: State) {
    if reference in known then reference in s.assemblies
    else if fileExists(reference) then FileKey(reference) in s.assemblies
    else reference in s.frameworks
  }

  /** A successful resolution accounts for every reference it was given. */
  lemma {:induction false} EveryReferenceAccounted(known: map<string, BudAssembly>, fileExists: string -> bool, references: seq<string>, s: State)
    requires ResolveAll(known, fileExists, references, s).duplicate.None?
    ensures forall reference :: reference in references ==> Accounted(known, fileExists, reference, ResolveAll(known, fileExists, references, s).state)
    decreases known.Keys - s.assemblies.Keys, |references|
  {
    if references != [] {
      var reference := references[0];
      var rest := references[1..];
      var r := ResolveAll(known, fileExists, references, s);
      assert forall x :: x in references ==> x == reference || x in rest;
      var t: State;
      if reference in known {
        if reference in s.assemblies {
          t := s;
        } else {
          var s1 := s.(assemblies := s.assemblies[reference := known[reference].location]);
          assert reference in known.Keys - s.assemblies.Keys;
          assert known.Keys - s1.assemblies.Keys == known.Keys - s.assemblies.Keys - {reference};
          t := ResolveAll(known, fileExists, known[reference].referencedNames, s1).state;
        }
      } else if fileExists(reference) {
        t := s.(assemblies := s.assemblies[FileKey(reference) := reference]);
        assert known.Keys - t.assemblies.Keys <= known.Keys - s.assemblies.Keys;
      } else {
        t := s.(frameworks := s.frameworks + {reference});
      }
      assert r == ResolveAll(known, fileExists, rest, t);
      assert Accounted(known, fileExists, reference, t);
      EveryReferenceAccounted(known, fileExists, rest, t);
    }
  }

  /**
   * A bud assembly met for the first time brings in the assemblies it
   * references: once resolution succeeds, each of them is accounted for.
   */
  lemma NewBudAssemblyBringsItsReferences(known: map<string, BudAssembly>, fileExists: string -> bool, reference: string, rest: seq<string>, s: State)
    requires reference in known && reference !in s.assemblies
    requires ResolveAll(known, fileExists, [reference] + rest, s).duplicate.None?
    ensures ResolveAll(known, fileExists, [reference] + rest, s).state.assemblies[reference] == known[reference].location
    ensures forall name :: name in known[reference].referencedNames
              ==> Accounted(known, fileExists, name, ResolveAll(known, fileExists, [reference] + rest, s).state)
  {
    var references := [reference] + rest;
    assert references[0] == reference && references[1..] == rest;
    var s1 := s.(assemblies := s.assemblies[reference := known[reference].location]);
    var inner := ResolveAll(known, fileExists, known[reference].referencedNames, s1);
    EveryReferenceAccounted(known, fileExists, known[reference].referencedNames, s1);
    var r := ResolveAll(known, fileExists, rest, inner.state);
    assert ResolveAll(known, fileExists, references, s) == r;
    forall name | name in known[reference].referencedNames
      ensures Accounted(known, fileExists, name, r.state)
    {
      assert Accounted(known, fileExists, name, inner.state);
    }
  }

  /**
   * Two existing files with the same name, in any two directories, cannot
   * both be referenced: the second `Add` fails on the shared name.
   */
  lemma SameFileNameTwiceFails(known: map<string, BudAssembly>, fileExists: string -> bool,
                               dirA: string, dirB: string, name: string, ext: string)
    requires Paths.IsBareName(name) && Paths.IsBareName(ext) && '.' !in ext
    requires dirA + "\\" + name + "." + ext !in known && dirB + "\\" + name + "." + ext !in known
    requires fileExists(dirA + "\\" + name + "." + ext) && fileExists(dirB + "\\" + name + "." + ext)
    ensures ResolveAll(known, fileExists, [dirA + "\\" + name + "." + ext, dirB + "\\" + name + "." + ext], State(map[], {})).duplicate
         == Some(name)
  {
    var a, b := dirA + "\\" + name + "." + ext, dirB + "\\" + name + "." + ext;
    Paths.FileNameWithoutExtensionRoundTrip(dirA, name, ext);
    Paths.FileNameWithoutExtensionRoundTrip(dirB, name, ext);
    var s0 := State(map[], {});
    var s1 := State(map[name := a], {});
    var refs := [a, b];
    assert refs[0] == a && refs[1..] == [b];
    assert ResolveAll(known, fileExists, [b], s1) == Outcome(s1, Some(name));
    assert ResolveAll(known, fileExists, refs, s0) == ResolveAll(known, fileExists, [b], s1);
  }

  /** The `IDictionary<string, string>` of resolved assemblies, a `Dictionary`. */
  class AssemblyDictionary {
    var items: map<string, string>

    constructor()
      ensures items == map[]
    {
      items := map[];
    }

    predicate ContainsKey(key: string)
      reads this
    {
      key in items
    }

    /** `Add`: refused (an exception in the source) when the key is already present. */
    method Add(key: string, value: string) returns (added: bool)
      modifies this
      ensures added <==> key !in old(items)
      ensures items == if added then old(items)[key := value] else old(items)
    {
      added := key !in items;
      if added {
        items := items[key := value];
      }
    }
  }

  /** The `ISet<string>` of framework assembly names. */
  class NameSet {
    var items: set<string>

    constructor()
      ensures items == {}
    {
      items := {};
    }

    method Add(item: string)
      modifies this
      ensures items == old(items) + {item}
    {
      items := items + {item};
    }
  }

  /** The state held by the two collections. */
  function StateOf(assemblies: AssemblyDictionary, frameworkAssemblies: NameSet): State
    reads assemblies, frameworkAssemblies
  {
    State(assemblies.items, frameworkAssemblies.items)
  }

  /**
   * `Resolve(references, assemblies, frameworkAssemblies)`: fills the two
   * collections as `ResolveAll` says, returning the duplicate name on which
   * `Add` failed, if any (the collections then keep what was added before).
   */
  method ResolveInto(known: map<string, BudAssembly>, fileExists: string -> bool, references: seq<string>,
                     assemblies: AssemblyDictionary, frameworkAssemblies: NameSet)
    returns (duplicate: Option<string>)
    modifies assemblies, frameworkAssemblies
    ensures Outcome(StateOf(assemblies, frameworkAssemblies), duplicate)
         == ResolveAll(known, fileExists, references, old(StateOf(assemblies, frameworkAssemblies)))
    decreases known.Keys - assemblies.items.Keys
  {
    ghost var start := StateOf(assemblies, frameworkAssemblies);
    var i := 0;
    while i < |references|
      invariant 0 <= i <= |references|
      invariant Grows(start, StateOf(assemblies, frameworkAssemblies))
      invariant ResolveAll(known, fileExists, references, start)
             == ResolveAll(known, fileExists, references[i..], StateOf(assemblies, frameworkAssemblies))
    {
      var reference := references[i];
      assert references[i..][0] == reference && references[i..][1..] == references[i + 1..];
      if reference in known {
        if assemblies.ContainsKey(reference) {
          i := i + 1;
          continue;
        }
        var assembly := known[reference];
        var added := assemblies.Add(reference, assembly.location);
        duplicate := ResolveInto(known, fileExists, assembly.referencedNames, assemblies, frameworkAssemblies);
        if duplicate.Some? {
          return;
        }
      } else if fileExists(reference) {
        var name := FileKey(reference);
        var added := assemblies.Add(name, reference);
        if !added {
          return Some(name);
        }
      } else {
        frameworkAssemblies.Add(reference);
      }
      i := i + 1;
    }
    duplicate := None;
  }

  /** `FrameworkAssembly(name, version)`. */
  datatype FrameworkAssembly = FrameworkAssembly(name: string, version: FrameworkReferences.Version)

  /** `ResolvedReferences`: the assemblies, and the framework assemblies. */
  datatype ResolvedReferences = ResolvedReferences(assemblies: set<Assemblies.Assembly>, frameworkAssemblies: set<FrameworkAssembly>)

  /** One assembly per dictionary entry, and one framework assembly at `maxVersion` per framework name. */
  function ToResolved(s: State, maxVersion: FrameworkReferences.Version): (r: ResolvedReferences)
    ensures forall name, path :: Assemblies.New(name, path) in r.assemblies <==> name in s.assemblies && s.assemblies[name] == path
    ensures forall a :: a in r.assemblies ==> a.runtimeType == Assemblies.AssemblyType
    ensures forall f :: f in r.frameworkAssemblies <==> f.name in s.frameworks && f.version == maxVersion
  {
    ResolvedReferences(set name | name in s.assemblies :: Assemblies.New(name, s.assemblies[name]),
                       set name | name in s.frameworks :: FrameworkAssembly(name, maxVersion))
  }

  /**
   * The public `Resolve(references)`: resolution into fresh collections; the
   * duplicate name when `Add` failed on one. `maxVersion` is `FrameworkAssembly.MaxVersion`.
   */
  method Resolve(known: map<string, BudAssembly>, fileExists: string -> bool, references: seq<string>,
                 maxVersion: FrameworkReferences.Version)
    returns (r: Outcome, resolved: ResolvedReferences)
    ensures r == ResolveAll(known, fileExists, references, State(map[], {}))
    ensures r.duplicate.None? ==> resolved == ToResolved(r.state, maxVersion)
  {
    var assemblies := new AssemblyDictionary();
    var frameworkAssemblies := new NameSet();
    var duplicate := ResolveInto(known, fileExists, references, assemblies, frameworkAssemblies);
    r := Outcome(StateOf(assemblies, frameworkAssemblies), duplicate);
    resolved := ToResolved(r.state, maxVersion);
  }
}

=== FILE: budgraph_scope.dfy ===
/**
 * The parent-replacing scope design (budGraph/Scope.cs): a scope placed `In`
 * another keeps its own id and takes the other as its parent.
 */
module BudGraphScopes {
  import opened ScopeTree

  /** `IsGlobal`: the scope is the root instance. */
  predicate IsGlobal(s: Scope) {
    s == Global
  }

  /** The root test agrees with the root being its own parent. */
  lemma IsGlobalIffOwnParent(s: Scope)
    ensures IsGlobal(s) <==> Parent(s) == s
  {
  }

  /**
   * `In(parent)`: the receiver itself when its parent already equals `parent`;
   * otherwise a scope with the receiver's id and `parent` as its parent.
   */
  function In(s: Scope, parent: Scope): (r: Scope)
    ensures Id(r) == Id(s) && Parent(r) == parent
    ensures Parent(s) == parent ==> r == s
    ensures Parent(s) != parent ==> Depth(r) == Depth(parent) + 1
  {
    if Equals(Parent(s), parent) then s else WithParent(Id(s), parent)
  }

  /**
   * `In` replaces the parent rather than concatenating: "y" under "x", placed
   * in "p", is "y" under "p", and "x" is gone.
   */
  lemma InReplacesParent()
    ensures Ids(In(WithParent("y", New("x")), New("p"))) == ["Global", "p", "y"]
  {
  }

  /** Placing a scope in its own parent changes nothing; placing it twice is placing it once. */
  lemma InIdempotent(s: Scope, parent: Scope)
    ensures In(In(s, parent), parent) == In(s, parent)
  {
  }
}

=== FILE: build_utils.dfy ===
/**
 * Projections of a build target key (Core/src/main/cs/Build/BuildUtils.cs).
 * A build target is `project / scope / language`: the language key's parent
 * is the scope key (such as main or test) and that one's parent the project key.
 *
 * The `Key` class of that design is not part of this model; its keys are
 * modelled as nodes of the shared scope tree (an id and a parent). Its
 * `IdsEqual` is taken to compare ids, `BuildKeys.Main` is given by its id,
 * and its string conversion is the parameter `render`.
 */
module BuildUtils {
  import opened ScopeTree

  /** `ProjectOf`: the target's grandparent. */
  function ProjectOf(buildTarget: Scope): (r: Scope)
    ensures Depth(buildTarget) >= 3 ==> Ids(r) == Ids(buildTarget)[..Depth(buildTarget) - 2]
    ensures Depth(buildTarget) < 3 ==> r == Global
  {
    Parent(Parent(buildTarget))
  }

  /** `ScopeOf`: the target's parent. */
  function ScopeOf(buildTarget: Scope): (r: Scope)
    ensures Depth(buildTarget) >= 2 ==> Ids(r) == Ids(buildTarget)[..Depth(buildTarget) - 1]
    ensures Depth(buildTarget) < 2 ==> r == Global
  {
    Parent(buildTarget)
  }

  /** `LanguageOf`: the target itself. */
  function LanguageOf(buildTarget: Scope): (r: Scope)
    ensures Ids(r) == Ids(buildTarget)
  {
    buildTarget
  }

  /**
   * `IdOf`: the project's id when the scope is the main one, and otherwise the
   * project's id, '.', and the scope key's string form.
   */
  function IdOf(buildTarget: Scope, mainId: string, render: Scope -> string): (r: string)
    ensures Id(ScopeOf(buildTarget)) == mainId ==> r == Id(ProjectOf(buildTarget))
    ensures Id(ScopeOf(buildTarget)) != mainId ==> r == Id(ProjectOf(buildTarget)) + "." + render(ScopeOf(buildTarget))
  {
    var projectId := Id(ProjectOf(buildTarget));
    var scope := ScopeOf(buildTarget);
    if Id(scope) == mainId then projectId else projectId + "." + render(scope)
  }

  /**
   * For a target `project / scope / language`, the three projections give back
   * the three parts, and the id is the project's for the main scope and
   * qualified by the scope otherwise.
   */
  lemma ProjectionsOfTarget(project: Scope, scope: string, language: string, mainId: string, render: Scope -> string)
    ensures var t := WithParent(language, WithParent(scope, project));
            && ProjectOf(t) == project
            && ScopeOf(t) == WithParent(scope, project)
            && LanguageOf(t) == t
            && IdOf(t, mainId, render) == (if scope == mainId then Id(project) else Id(project) + "." + render(WithParent(scope, project)))
  {
  }
}

=== FILE: conf.dfy ===
/**
 * The immutable configuration builder (Bud/Conf.cs).
 *
 * A `Conf` is an ordered list of instructions, each tagged with the scope (a
 * stack of directory names) current when it was added, plus that current
 * scope. `ToCompiled` replays the instructions in order into one flat table of
 * definitions, each under its recorded scope; an instruction that is itself a
 * `Conf` replays its own instructions one directory level further in.
 *
 * `InitConf`, `ModifyConf` and `ScopedDictionaryBuilder` are not part of this
 * model. Here `Init` defines the qualified key only when it is absent, with a
 * definition scoped like `SetConf`'s, `Modify` applies a `ModifyConfig` nested
 * under the directory prefix, and `ScopedDictionaryBuilder.In(scope)` appends
 * `scope` to the current directory.
 */
module Confs {
  import opened Failures
  import opened Optional
  import opened Keys
  import opened Definitions
  import SetConfig
  import EnsureInitialized
  import ModifyConfigs

  type ConfigDefinitionError = ModifyConfigs.ConfigDefinitionError

  /** An `IConfBuilder`: one of the three instructions, or a whole `Conf`. */
  datatype ConfBuilder<V> =
    | SetConf(key: Key, valueFactory: Factory<V>)
    | InitConf(key: Key, valueFactory: Factory<V>)
    | ModifyConf(key: Key, modifier: string)
    | NestedConf(conf: Conf<V>)

  /** `ScopedConfBuilder`: a builder and the scope current when it was added. */
  datatype ScopedConfBuilder<V> = ScopedConfBuilder(scope: seq<string>, confBuilder: ConfBuilder<V>)

  /** `Conf`: the builders in insertion order, and the current `Scope`. */
  datatype Conf<V> = Conf(scopedConfBuilders: seq<ScopedConfBuilder<V>>, scope: seq<string>)

  /** `Conf.Empty`: no builders, the empty scope. */
  function Empty<V>(): (r: Conf<V>)
    ensures r.scopedConfBuilders == [] && r.scope == []
  {
    Conf([], [])
  }

  /** `In(scope)`: the same builders, with `scope` pushed on the back of the scope. */
  function In<V>(c: Conf<V>, scope: string): (r: Conf<V>)
    ensures r.scopedConfBuilders == c.scopedConfBuilders
    ensures |r.scope| == |c.scope| + 1 && r.scope[..|c.scope|] == c.scope && r.scope[|c.scope|] == scope
  {
    Conf(c.scopedConfBuilders, c.scope + [scope])
  }

  /** The `InvalidOperationException` of `Out` on an empty scope. */
  datatype ScopeError = CannotBacktrack

  /** `Out()`: the same builders with the last scope segment popped; throws when the scope is empty. */
  function Out<V>(c: Conf<V>): (r: Result<Conf<V>, ScopeError>)
    ensures r.Err? <==> c.scope == []
    ensures r.Err? ==> r.error == CannotBacktrack
    ensures r.Ok? ==> r.value.scopedConfBuilders == c.scopedConfBuilders
                      && r.value.scope + [c.scope[|c.scope| - 1]] == c.scope
  {
    if c.scope == [] then Err(CannotBacktrack)
    else Ok(Conf(c.scopedConfBuilders, c.scope[..|c.scope| - 1]))
  }

  /** `MakeScopedConfBuilder`: tags a builder with the receiver's current scope. */
  function MakeScopedConfBuilder<V>(c: Conf<V>, builder: ConfBuilder<V>): (r: ScopedConfBuilder<V>)
    ensures r.scope == c.scope && r.confBuilder == builder
  {
    ScopedConfBuilder(c.scope, builder)
  }

  /**
   * `Add(otherConfs)`: the receiver's builders followed by one entry per given
   * builder, in order, each tagged with the receiver's scope; the scope is unchanged.
   */
  function Add<V>(c: Conf<V>, otherConfs: seq<ConfBuilder<V>>): (r: Conf<V>)
    ensures r.scope == c.scope
    ensures |r.scopedConfBuilders| == |c.scopedConfBuilders| + |otherConfs|
    ensures r.scopedConfBuilders[..|c.scopedConfBuilders|] == c.scopedConfBuilders
    ensures forall k :: 0 <= k < |otherConfs| ==>
              r.scopedConfBuilders[|c.scopedConfBuilders| + k] == ScopedConfBuilder(c.scope, otherConfs[k])
  {
    Conf(c.scopedConfBuilders + seq(|otherConfs|, k requires 0 <= k < |otherConfs| => MakeScopedConfBuilder(c, otherConfs[k])), c.scope)
  }

  /** `Set`: appends one overwriting instruction. */
  function Set<V>(c: Conf<V>, configKey: Key, valueFactory: Factory<V>): (r: Conf<V>)
    ensures r.scope == c.scope
    ensures r.scopedConfBuilders == c.scopedConfBuilders + [ScopedConfBuilder(c.scope, SetConf(configKey, valueFactory))]
  {
    Add(c, [SetConf(configKey, valueFactory)])
  }

  /** `Init`: appends one define-if-absent instruction. */
  function Init<V>(c: Conf<V>, configKey: Key, valueFactory: Factory<V>): (r: Conf<V>)
    ensures r.scope == c.scope
    ensures r.scopedConfBuilders == c.scopedConfBuilders + [ScopedConfBuilder(c.scope, InitConf(configKey, valueFactory))]
  {
    Add(c, [InitConf(configKey, valueFactory)])
  }

  /** `Modify`: appends one modifying instruction. */
  function Modify<V>(c: Conf<V>, configKey: Key, modifier: string): (r: Conf<V>)
    ensures r.scope == c.scope
    ensures r.scopedConfBuilders == c.scopedConfBuilders + [ScopedConfBuilder(c.scope, ModifyConf(configKey, modifier))]
  {
    Add(c, [ModifyConf(configKey, modifier)])
  }

  /** `SetValue`: `Set` with the constant factory `cfg => value`. */
  function SetValue<V>(c: Conf<V>, configKey: Key, value: V): (r: Conf<V>)
    ensures r == Set(c, configKey, Constant(value))
  {
    Set(c, configKey, Constant(value))
  }

  /** `InitValue`: `Init` with the constant factory `cfg => value`. */
  function InitValue<V>(c: Conf<V>, configKey: Key, value: V): (r: Conf<V>)
    ensures r == Init(c, configKey, Constant(value))
  {
    Init(c, configKey, Constant(value))
  }

  /** `InConf(scope)`: no builders, scope `[scope]`. */
  function InConf<V>(scope: string): (r: Conf<V>)
    ensures r.scopedConfBuilders == [] && r.scope == [scope]
  {
    Conf([], [scope])
  }

  /** `New(confs)`: `Empty.Add(confs)`. */
  function New<V>(confs: seq<ConfBuilder<V>>): (r: Conf<V>)
    ensures r == Add(Empty(), confs)
  {
    Add(Empty(), confs)
  }

  // ---------------------------------------------------------------------------
  // Replaying the instructions

  /** One instruction with the directory it applies in. */
  datatype Primitive<V> =
    | DefineAt(dir: seq<string>, key: Key, valueFactory: Factory<V>)
    | InitAt(dir: seq<string>, key: Key, valueFactory: Factory<V>)
    | ModifyAt(dir: seq<string>, key: Key, modifier: string)

  /** The instructions the first `n` builders of `c` replay when applied in `dir`, in order. */
  function FlattenPrefix<V>(c: Conf<V>, n: nat, dir: seq<string>): seq<Primitive<V>>
    requires n <= |c.scopedConfBuilders|
    decreases c, n
  {
    if n == 0 then []
    else FlattenPrefix(c, n - 1, dir) + FlattenEntry(c, n - 1, dir)
  }

  /** The instructions builder `i` of `c` replays when `c` is applied in `dir`. */
  function FlattenEntry<V>(c: Conf<V>, i: nat, dir: seq<string>): seq<Primitive<V>>
    requires i < |c.scopedConfBuilders|
    decreases c, i
  {
    var sb := c.scopedConfBuilders[i];
    assert sb in c.scopedConfBuilders;
    match sb.confBuilder
    case NestedConf(inner) => FlattenPrefix(inner, |inner.scopedConfBuilders|, dir + sb.scope)
    case _ => [ToPrimitive(dir + sb.scope, sb.confBuilder)]
  }

  /** The instruction a non-conf builder replays in `dir`. */
  function ToPrimitive<V>(dir: seq<string>, b: ConfBuilder<V>): Primitive<V>
    requires !b.NestedConf?
  {
    match b
    case SetConf(key, f) => DefineAt(dir, key, f)
    case InitConf(key, f) => InitAt(dir, key, f)
    case ModifyConf(key, m) => ModifyAt(dir, key, m)
  }

  /** All instructions `c` replays when applied in `dir`. */
  function Flatten<V>(c: Conf<V>, dir: seq<string>): seq<Primitive<V>> {
    FlattenPrefix(c, |c.scopedConfBuilders|, dir)
  }

  /** The modification a `ModifyConf` makes in `dir`: its key and its modifier's conf nested under `dir`. */
  function ModifyIn(dir: seq<string>, key: Key, modifier: string): (mc: ModifyConfigs.ModifyConfig)
    ensures mc.key == Qualified(dir, key) && mc.valueFactory == modifier
    ensures mc.prefix == (if dir == [] then None else Some(DirPrefix(dir)))
  {
    var mc := ModifyConfigs.New(key, modifier);
    if dir == [] then mc
    else
      ModifyConfigs.NestUnderDirectory(mc, dir);
      ModifyConfigs.Nest(mc, DirPrefix(dir))
  }

  /** The table after one instruction, or the exception it throws. */
  function Step<V>(p: Primitive<V>, entries: map<string, Def<V>>): Result<map<string, Def<V>>, ConfigDefinitionError> {
    match p
    case DefineAt(dir, key, f) => Ok(SetConfig.Defined(entries, dir, key, f))
    case InitAt(dir, key, f) => Ok(EnsureInitialized.Initialized(entries, Qualified(dir, key).id, Scoped(f, dir)))
    case ModifyAt(dir, key, m) => ModifyConfigs.Transform(ModifyIn(dir, key, m), entries)
  }

  /** Replaying `ps` in order from `entries`; the first exception stops the replay. */
  function Replay<V>(ps: seq<Primitive<V>>, entries: map<string, Def<V>>): Result<map<string, Def<V>>, ConfigDefinitionError>
    decreases |ps|
  {
    if ps == [] then Ok(entries)
    else
      match Step(ps[0], entries)
      case Err(e) => Err(e)
      case Ok(next) => Replay(ps[1..], next)
  }

  /** Continues a replay outcome with `ps`. */
  function Then<V>(r: Result<map<string, Def<V>>, ConfigDefinitionError>, ps: seq<Primitive<V>>): Result<map<string, Def<V>>, ConfigDefinitionError> {
    if r.Err? then r else Replay(ps, r.value)
  }

  /** What `ToCompiled` produces: the replay of everything from an empty table at the empty scope. */
  function Compile<V>(c: Conf<V>): Result<map<string, Def<V>>, ConfigDefinitionError> {
    Replay(Flatten(c, []), map[])
  }

  /** A method's outcome as a replay result: no exception and the table, or the exception. */
  function Outcome<V>(failure: Option<ConfigDefinitionError>, entries: map<string, Def<V>>): Result<map<string, Def<V>>, ConfigDefinitionError> {
    if failure.None? then Ok(entries) else Err(failure.value)
  }

  /** Replaying a concatenation is replaying the first part and continuing with the second. */
  lemma {:induction false} ReplayAppend<V>(ps: seq<Primitive<V>>, qs: seq<Primitive<V>>, entries: map<string, Def<V>>)
    ensures Replay(ps + qs, entries) == Then(Replay(ps, entries), qs)
    decreases |ps|
  {
    if ps == [] {
      assert ps + qs == qs;
    } else {
      assert (ps + qs)[0] == ps[0];
      assert (ps + qs)[1..] == ps[1..] + qs;
      match Step(ps[0], entries)
      case Err(e) =>
      case Ok(next) => ReplayAppend(ps[1..], qs, next);
    }
  }

  /** The instructions of the first `i` builders come first among those of the first `n`. */
  lemma {:induction false} FlattenPrefixIsPrefix<V>(c: Conf<V>, i: nat, n: nat, dir: seq<string>)
    requires i <= n <= |c.scopedConfBuilders|
    ensures FlattenPrefix(c, i, dir) <= FlattenPrefix(c, n, dir)
    decreases n
  {
    if i < n {
      FlattenPrefixIsPrefix(c, i, n - 1, dir);
    }
  }

  /** Two confs whose first `n` builders agree replay the same instructions for them. */
  lemma {:induction false} FlattenPrefixAgrees<V>(c1: Conf<V>, c2: Conf<V>, n: nat, dir: seq<string>)
    requires n <= |c1.scopedConfBuilders| && n <= |c2.scopedConfBuilders|
    requires c1.scopedConfBuilders[..n] == c2.scopedConfBuilders[..n]
    ensures FlattenPrefix(c1, n, dir) == FlattenPrefix(c2, n, dir)
  {
    if n > 0 {
      assert c1.scopedConfBuilders[n - 1] == c1.scopedConfBuilders[..n][n - 1];
      assert c1.scopedConfBuilders[..n - 1] == c1.scopedConfBuilders[..n][..n - 1];
      assert c2.scopedConfBuilders[..n - 1] == c2.scopedConfBuilders[..n][..n - 1];
      FlattenPrefixAgrees(c1, c2, n - 1, dir);
    }
  }

  /**
   * Adding one primitive instruction to a conf appends exactly one replayed
   * instruction, at the conf's current scope, after all existing ones.
   */
  lemma CompileAddOne<V>(c: Conf<V>, b: ConfBuilder<V>)
    requires !b.NestedConf?
    ensures Compile(Add(c, [b])) == Then(Compile(c), [ToPrimitive(c.scope, b)])
  {
    var c' := Add(c, [b]);
    var n := |c.scopedConfBuilders|;
    FlattenPrefixAgrees(c, c', n, []);
    assert [] + c.scope == c.scope;
    assert Flatten(c', []) == Flatten(c, []) + FlattenEntry(c', n, []);
    ReplayAppend(Flatten(c, []), FlattenEntry(c', n, []), map[]);
  }

  /** Replaying one instruction is applying it. */
  lemma ReplayOne<V>(p: Primitive<V>, entries: map<string, Def<V>>)
    ensures Replay([p], entries) == Step(p, entries)
  {
    assert [p][1..] == [];
  }

  // ---------------------------------------------------------------------------
  // Replaying into a mutable table

  /** Applies one instruction to `table`, or reports the exception it throws. */
  method ApplyPrimitive<V>(p: Primitive<V>, table: DefinitionTable<V>) returns (failure: Option<ConfigDefinitionError>)
    modifies table
    ensures Step(p, old(table.entries)) == Outcome(failure, table.entries)
  {
    match p
    case DefineAt(dir, key, f) =>
      SetConfig.DefineConfIn(table, dir, f, key);
      failure := None;
    case InitAt(dir, key, f) =>
      var path := Qualified(dir, key).id;
      if !table.ContainsKey(path) {
        table.Put(path, Scoped(f, dir));
      }
      failure := None;
    case ModifyAt(dir, key, m) =>
      var mc := ModifyIn(dir, key, m);
      if table.ContainsKey(mc.key.id) {
        table.Put(mc.key.id, ModifyConfigs.Modify(mc, table.entries[mc.key.id]));
        failure := None;
      } else {
        failure := Some(ModifyConfigs.NoPreviousDefinition(mc.key));
      }
  }

  /** Applies builder `i` of `conf` in `dir`: one instruction, or a whole conf one scope further in. */
  method ApplyEntry<V>(conf: Conf<V>, i: nat, table: DefinitionTable<V>, dir: seq<string>) returns (failure: Option<ConfigDefinitionError>)
    requires i < |conf.scopedConfBuilders|
    modifies table
    ensures Replay(FlattenEntry(conf, i, dir), old(table.entries)) == Outcome(failure, table.entries)
    decreases conf, 0
  {
    var sb := conf.scopedConfBuilders[i];
    assert sb in conf.scopedConfBuilders;
    if sb.confBuilder.NestedConf? {
      failure := ApplyIn(sb.confBuilder.conf, table, dir + sb.scope);
    } else {
      var p := ToPrimitive(dir + sb.scope, sb.confBuilder);
      ReplayOne(p, table.entries);
      failure := ApplyPrimitive(p, table);
    }
  }

  /** Once a prefix of the builders fails, the whole replay fails the same way. */
  lemma ReplayStopsAtFailure<V>(conf: Conf<V>, i: nat, dir: seq<string>, entries: map<string, Def<V>>)
    requires i <= |conf.scopedConfBuilders|
    requires Replay(FlattenPrefix(conf, i, dir), entries).Err?
    ensures Replay(Flatten(conf, dir), entries) == Replay(FlattenPrefix(conf, i, dir), entries)
  {
    FlattenPrefixIsPrefix(conf, i, |conf.scopedConfBuilders|, dir);
    var full := Flatten(conf, dir);
    var done := FlattenPrefix(conf, i, dir);
    assert full == done + full[|done|..];
    ReplayAppend(done, full[|done|..], entries);
  }

  /**
   * `ApplyIn`: applies every builder, in insertion order, in `dir` extended by
   * the builder's recorded scope. The table ends as the replay prescribes, or
   * the replay's exception is reported.
   */
  method ApplyIn<V>(conf: Conf<V>, table: DefinitionTable<V>, dir: seq<string>) returns (failure: Option<ConfigDefinitionError>)
    modifies table
    ensures Replay(Flatten(conf, dir), old(table.entries)) == Outcome(failure, table.entries)
    decreases conf, 1
  {
    var n := |conf.scopedConfBuilders|;
    for i := 0 to n
      invariant Replay(FlattenPrefix(conf, i, dir), old(table.entries)) == Ok(table.entries)
    {
      failure := ApplyEntry(conf, i, table, dir);
      ReplayAppend(FlattenPrefix(conf, i, dir), FlattenEntry(conf, i, dir), old(table.entries));
      if failure.Some? {
        ReplayStopsAtFailure(conf, i + 1, dir, old(table.entries));
        return;
      }
    }
    failure := None;
  }

  /** `ToCompiled`: replays every builder into a fresh table at the empty scope. */
  method ToCompiled<V>(conf: Conf<V>) returns (r: Result<map<string, Def<V>>, ConfigDefinitionError>)
    ensures r == Compile(conf)
  {
    var definitions := new DefinitionTable<V>();
    var failure := ApplyIn(conf, definitions, []);
    r := Outcome(failure, definitions.entries);
  }

  // ---------------------------------------------------------------------------
  // Properties of the builder

  /** Popping after pushing restores the conf. */
  lemma OutAfterIn<V>(c: Conf<V>, scope: string)
    ensures Out(In(c, scope)) == Ok(c)
  {
    assert (c.scope + [scope])[..|c.scope|] == c.scope;
  }

  /** `InConf(s)` is `Empty.In(s)`. */
  lemma InConfIsEmptyIn<V>(scope: string)
    ensures InConf<V>(scope) == In(Empty(), scope)
  {
  }

  /** Adding builders one call at a time is adding them in one call. */
  lemma AddAssociates<V>(c: Conf<V>, xs: seq<ConfBuilder<V>>, ys: seq<ConfBuilder<V>>)
    ensures Add(Add(c, xs), ys) == Add(c, xs + ys)
  {
    var l := Add(Add(c, xs), ys).scopedConfBuilders;
    var r := Add(c, xs + ys).scopedConfBuilders;
    assert |l| == |r|;
    forall k | 0 <= k < |l|
      ensures l[k] == r[k]
    {
      var n := |c.scopedConfBuilders|;
      if k < n {
        assert l[k] == Add(Add(c, xs), ys).scopedConfBuilders[..n + |xs|][k];
      } else if k < n + |xs| {
        assert l[k] == Add(Add(c, xs), ys).scopedConfBuilders[..n + |xs|][k];
        assert l[k] == Add(c, xs).scopedConfBuilders[n + (k - n)];
      } else {
        assert l[k] == Add(Add(c, xs), ys).scopedConfBuilders[n + |xs| + (k - n - |xs|)];
      }
    }
  }

  /**
   * `Set` overwrites: compiling after a `Set` gives the table compiled before,
   * with the qualified key holding the new scope-capturing definition.
   */
  lemma CompileSet<V>(c: Conf<V>, configKey: Key, valueFactory: Factory<V>)
    ensures Compile(c).Err? ==> Compile(Set(c, configKey, valueFactory)) == Compile(c)
    ensures Compile(c).Ok? ==> Compile(Set(c, configKey, valueFactory))
                                == Ok(Compile(c).value[Qualified(c.scope, configKey).id := Scoped(valueFactory, c.scope)])
  {
    CompileAddOne(c, SetConf(configKey, valueFactory));
    if Compile(c).Ok? {
      ReplayOne(DefineAt(c.scope, configKey, valueFactory), Compile(c).value);
    }
  }

  /**
   * `Init` does nothing when the key is already defined: after a first `Init`,
   * a second `Init` of the same key in the same scope leaves the compiled table
   * as it was.
   */
  lemma CompileInitKeepsFirst<V>(c: Conf<V>, configKey: Key, first: Factory<V>, second: Factory<V>)
    ensures Compile(Init(Init(c, configKey, first), configKey, second)) == Compile(Init(c, configKey, first))
  {
    var c1 := Init(c, configKey, first);
    CompileAddOne(c, InitConf(configKey, first));
    CompileAddOne(c1, InitConf(configKey, second));
    if Compile(c).Ok? {
      var m := Compile(c).value;
      ReplayOne(InitAt(c.scope, configKey, first), m);
      ReplayOne(InitAt(c.scope, configKey, second), Compile(c1).value);
      EnsureInitialized.FirstWriterWins(Compile(c).value, Qualified(c.scope, configKey).id, Scoped(first, c.scope), Scoped(second, c.scope));
    }
  }

  /** Modifying a key that nothing defines makes compilation fail with the key named. */
  lemma CompileModifyUndefinedFails<V>(configKey: Key, modifier: string)
    ensures Compile(Modify(Empty<V>(), configKey, modifier)) == Err(ModifyConfigs.NoPreviousDefinition(configKey))
  {
    CompileAddOne(Empty<V>(), ModifyConf(configKey, modifier));
    assert Flatten(Empty<V>(), []) == [];
    ReplayOne<V>(ModifyAt([], configKey, modifier), map[]);
  }

  /**
   * Initialising a key to "foo" and then modifying it with a modifier that
   * appends "bar" makes the key evaluate to "foobar".
   */
  lemma InitThenModifyGivesFoobar(configKey: Key, run: (string, ConfView) -> string)
    ensures var transform := (name: string, view: ConfView, v: string) => if name == "appendBar" then v + "bar" else v;
            var r := Compile(Modify(InitValue(Empty(), configKey, "foo"), configKey, "appendBar"));
            && r.Ok? && configKey.id in r.value
            && Eval(r.value[configKey.id], Invoked, run, transform) == "foobar"
  {
    var c0 := Empty<string>();
    var c1 := InitValue(c0, configKey, "foo");
    CompileAddOne(c0, InitConf(configKey, Constant("foo")));
    CompileAddOne(c1, ModifyConf(configKey, "appendBar"));
    assert Flatten(c0, []) == [];
    ReplayOne(InitAt([], configKey, Constant("foo")), map[]);
    var m1 := map[configKey.id := Scoped(Constant("foo"), [])];
    assert Compile(c1) == Ok(m1);
    ReplayOne(ModifyAt([], configKey, "appendBar"), m1);
  }

  /**
   * A conf added inside another conf's scope replays there: `InConf(dir)` with
   * a conf that sets `k` defines `dir/k`, scoped to the directory `[dir]`.
   */
  lemma NestedConfReplaysInScope<V>(dir: string, configKey: Key, value: V)
    ensures Compile(Add(InConf(dir), [NestedConf(SetValue(Empty(), configKey, value))]))
         == Ok(map[Nest(dir, configKey).id := Scoped(Constant(value), [dir])])
  {
    var inner := SetValue(Empty(), configKey, value);
    var outer := Add(InConf(dir), [NestedConf(inner)]);
    assert [] + [dir] == [dir];
    assert [dir] + [] == [dir];
    assert |outer.scopedConfBuilders| == 1 && outer.scopedConfBuilders[0] == ScopedConfBuilder([dir], NestedConf(inner));
    assert FlattenPrefix(outer, 0, []) == [];
    assert Flatten(outer, []) == FlattenPrefix(outer, 0, []) + FlattenEntry(outer, 0, []);
    assert |inner.scopedConfBuilders| == 1 && inner.scopedConfBuilders[0] == ScopedConfBuilder([], SetConf(configKey, Constant(value)));
    assert FlattenEntry(outer, 0, []) == FlattenPrefix(inner, 1, [dir]);
    assert FlattenPrefix(inner, 0, [dir]) == [];
    assert FlattenPrefix(inner, 1, [dir]) == FlattenPrefix(inner, 0, [dir]) + FlattenEntry(inner, 0, [dir]);
    assert FlattenEntry(inner, 0, [dir]) == [DefineAt([dir], configKey, Constant(value))];
    assert Qualified([dir], configKey) == Nest(dir, configKey);
    ReplayOne(DefineAt([dir], configKey, Constant(value)), map[]);
    assert Flatten(outer, []) == [DefineAt([dir], configKey, Constant(value))];
    assert Compile(outer) == Ok(SetConfig.Defined(map[], [dir], configKey, Constant(value)));
  }
}

=== FILE: definitions.dfy ===
/**
 * Configuration definitions: what a definition table stores under a key, and
 * what running a stored definition does.
 *
 * The build description's value factories and modifiers are C# delegates. Here
 * a factory is either a constant (`cfg => value`) or a named delegate, and a
 * modifier is named; what a named delegate computes is an interpretation
 * passed to `Eval`. `Calls` records which delegates one invocation of a
 * definition runs, in order, and the configuration view each one receives.
 */
module Definitions {
  import opened Optional

  /** A value factory `Func<IConf, T>`. */
  datatype Factory<V> = Constant(value: V) | Named(name: string)

  /**
   * The configuration object a delegate receives: the one the definition was
   * invoked with (`Invoked`), that one scoped to a directory
   * (`ScopedConf.MakeScoped`), or that one nested under a key prefix (`NestedConf`).
   */
  datatype ConfView = Invoked | ScopedTo(dir: seq<string>, inner: ConfView) | NestedIn(prefix: string, inner: ConfView)

  /** A stored definition (`IConfDefinition`). */
  datatype Def<V> =
    | Plain(factory: Factory<V>)                                 // `new ConfigDefinition<T>(factory)`
    | Scoped(factory: Factory<V>, dir: seq<string>)              // the factory run on a conf scoped to `dir`
    | Modified(modifier: string, prefix: Option<string>, prev: Def<V>)  // a modifier wrapped around `prev`

  /** One delegate invocation. */
  datatype Call<V> = FactoryCall(factory: Factory<V>, view: ConfView) | ModifierCall(modifier: string, view: ConfView)

  /** The view a modifier receives: the invoking one, or it nested under the prefix. */
  function ModifierView(prefix: Option<string>, view: ConfView): ConfView {
    if prefix.None? then view else NestedIn(prefix.value, view)
  }

  /** The delegates one invocation of `d` with `view` runs, in the order they run. */
  function Calls<V>(d: Def<V>, view: ConfView): seq<Call<V>> {
    match d
    case Plain(f) => [FactoryCall(f, view)]
    case Scoped(f, dir) => [FactoryCall(f, ScopedTo(dir, view))]
    case Modified(m, prefix, prev) => Calls(prev, view) + [ModifierCall(m, ModifierView(prefix, view))]
  }

  /** What a factory returns when given `view`, under the interpretation `run` of named factories. */
  function RunFactory<V>(f: Factory<V>, view: ConfView, run: (string, ConfView) -> V): V {
    match f
    case Constant(v) => v
    case Named(name) => run(name, view)
  }

  /** The value an invocation of `d` with `view` returns, under the interpretations `run` and `transform`. */
  function Eval<V>(d: Def<V>, view: ConfView, run: (string, ConfView) -> V, transform: (string, ConfView, V) -> V): V {
    match d
    case Plain(f) => RunFactory(f, view, run)
    case Scoped(f, dir) => RunFactory(f, ScopedTo(dir, view), run)
    case Modified(m, prefix, prev) => transform(m, ModifierView(prefix, view), Eval(prev, view, run, transform))
  }

  /** The number of modifiers wrapped around the innermost definition. */
  function ModifierCount<V>(d: Def<V>): nat {
    if d.Modified? then ModifierCount(d.prev) + 1 else 0
  }

  /** The factory at the core of `d`. */
  function BaseFactory<V>(d: Def<V>): Factory<V> {
    if d.Modified? then BaseFactory(d.prev) else d.factory
  }

  /**
   * However many modifiers wrap a definition, one invocation runs its base
   * factory exactly once, first, and then each modifier exactly once, innermost
   * first: every later call is a modifier call.
   */
  lemma {:induction false} BaseFactoryRunsOnceFirst<V>(d: Def<V>, view: ConfView)
    ensures |Calls(d, view)| == ModifierCount(d) + 1
    ensures Calls(d, view)[0].FactoryCall? && Calls(d, view)[0].factory == BaseFactory(d)
    ensures forall i :: 1 <= i < |Calls(d, view)| ==> Calls(d, view)[i].ModifierCall?
  {
    if d.Modified? {
      BaseFactoryRunsOnceFirst(d.prev, view);
    }
  }

  /** A constant factory returns its value whatever configuration it is given. */
  lemma ConstantIgnoresConf<V>(v: V, view: ConfView, run: (string, ConfView) -> V)
    ensures RunFactory(Constant(v), view, run) == v
  {
  }

  /**
   * The mutable dictionary of definitions a build description is compiled into
   * (`Dictionary<string, IConfDefinition>`, and the dictionary builders of the
   * older designs), keyed by fully qualified path.
   */
  class DefinitionTable<V> {
    var entries: map<string, Def<V>>

    /** A new, empty table. */
    constructor ()
      ensures entries == map[]
    {
      entries := map[];
    }

    /** `ContainsKey`. */
    predicate ContainsKey(path: string)
      reads this
    {
      path in entries
    }

    /** The indexer setter: stores `d` under `path`, replacing any previous definition. */
    method Put(path: string, d: Def<V>)
      modifies this
      ensures entries == old(entries)[path := d]
    {
      entries := entries[path := d];
    }
  }
}

=== FILE: ensure_config_initialized.dfy ===
/**
 * The keep-first definition instruction
 * (budApi/SettingsConstruction/Ops/EnsureConfigInitialized.cs): define the key
 * with the initial value factory only if it has no definition yet.
 */
module EnsureInitialized {
  import opened Definitions

  /** `EnsureConfigInitialized<T>`: the key and the `InitialValue` factory. */
  datatype EnsureConfigInitialized<V> = EnsureConfigInitialized(key: string, initialValue: Factory<V>)

  /** The constructor taking a factory. */
  function FromFactory<V>(key: string, initialValue: Factory<V>): (op: EnsureConfigInitialized<V>)
    ensures op.key == key && op.initialValue == initialValue
  {
    EnsureConfigInitialized(key, initialValue)
  }

  /**
   * The constructor taking a value: the factory constructor with the constant
   * factory `b => initialValue`.
   */
  function FromValue<V>(key: string, initialValue: V): (op: EnsureConfigInitialized<V>)
    ensures op == FromFactory(key, Constant(initialValue))
  {
    FromFactory(key, Constant(initialValue))
  }

  /** The table after defining `key` with `d` unless it is already defined. */
  function Initialized<V>(entries: map<string, Def<V>>, key: string, d: Def<V>): map<string, Def<V>> {
    if key in entries then entries else entries[key := d]
  }

  /** `ApplyTo`: writes the definition built from `InitialValue` only when the key is absent. */
  method ApplyTo<V>(op: EnsureConfigInitialized<V>, table: DefinitionTable<V>)
    modifies table
    ensures table.entries == Initialized(old(table.entries), op.key, Plain(op.initialValue))
  {
    if !table.ContainsKey(op.key) {
      table.Put(op.key, Plain(op.initialValue));
    }
  }

  /**
   * An absent key is defined afterwards; a present one keeps its definition; no
   * other key is added or changed.
   */
  lemma InitializedDefinesOnlyIfAbsent<V>(entries: map<string, Def<V>>, key: string, d: Def<V>)
    ensures var after := Initialized(entries, key, d);
            && after.Keys == entries.Keys + {key}
            && after[key] == (if key in entries then entries[key] else d)
            && forall k :: k in entries && k != key ==> after[k] == entries[k]
  {
  }

  /** The first writer wins: a second initialisation of the same key changes nothing. */
  lemma FirstWriterWins<V>(entries: map<string, Def<V>>, key: string, first: Def<V>, second: Def<V>)
    ensures Initialized(Initialized(entries, key, first), key, second) == Initialized(entries, key, first)
  {
  }

  /** Applying the same instruction twice is applying it once. */
  lemma InitializedIdempotent<V>(entries: map<string, Def<V>>, key: string, d: Def<V>)
    ensures Initialized(Initialized(entries, key, d), key, d) == Initialized(entries, key, d)
  {
    FirstWriterWins(entries, key, d, d);
  }

  /** A key initialised from a value evaluates to that value on any configuration. */
  lemma ValueInitialisationEvaluatesToValue<V>(entries: map<string, Def<V>>, key: string, v: V, view: ConfView,
                                               run: (string, ConfView) -> V, transform: (string, ConfView, V) -> V)
    requires key !in entries
    ensures Eval(Initialized(entries, key, Plain(FromValue(key, v).initialValue))[key], view, run, transform) == v
  {
  }
}

=== FILE: failures.dfy ===
/** Exceptions thrown by the build engine, as values. */
module Failures {

  /** The outcome of an operation that may throw: the value it returns, or the exception it throws. */
  datatype Result<+T, +E> = Ok(value: T) | Err(error: E)
}

=== FILE: files.dfy ===
/**
 * Timestamped file lists (Bud/IO/Files.cs): an immutable sequence of file
 * paths, each with its last write time, that can be concatenated and filtered.
 *
 * The last write time of a path is read from the file system; here it is the
 * parameter `lastWriteTime`.
 */
module FileLists {

  /** `Timestamped<string>`: a path and its last write time (in ticks). */
  datatype Timestamped = Timestamped(value: string, timestamp: int)

  /** `Files`: the wrapped sequence of timestamped paths. */
  datatype Files = Files(files: seq<Timestamped>)

  /** `Files.Empty`. */
  function Empty(): (r: Files)
    ensures Enumerate(r) == []
  {
    Files([])
  }

  /** The constructor over timestamped paths. */
  function FromTimestamped(files: seq<Timestamped>): (r: Files)
    ensures Enumerate(r) == files
  {
    Files(files)
  }

  /** `ToTimestampedFile`: the path with its last write time. */
  function ToTimestampedFile(path: string, lastWriteTime: string -> int): (r: Timestamped)
    ensures r.value == path && r.timestamp == lastWriteTime(path)
  {
    Timestamped(path, lastWriteTime(path))
  }

  /** The constructor over paths, and `Create`: one entry per path, in order. */
  function Create(paths: seq<string>, lastWriteTime: string -> int): (r: Files)
    ensures |Enumerate(r)| == |paths|
    ensures forall i :: 0 <= i < |paths| ==> Enumerate(r)[i] == Timestamped(paths[i], lastWriteTime(paths[i]))
  {
    Files(seq(|paths|, i requires 0 <= i < |paths| => ToTimestampedFile(paths[i], lastWriteTime)))
  }

  /** `GetEnumerator`: the wrapped sequence, in order. */
  function Enumerate(f: Files): seq<Timestamped> {
    f.files
  }

  /** `ExpandWith(other)`: the receiver's entries followed by the other's. */
  function ExpandWith(f: Files, other: Files): (r: Files)
    ensures Enumerate(r) == Enumerate(f) + Enumerate(other)
  {
    Files(f.files + other.files)
  }

  /** `Where`: the entries satisfying `filter`, in order. */
  function Where(xs: seq<Timestamped>, filter: Timestamped -> bool): (r: seq<Timestamped>)
    ensures |r| <= |xs|
    ensures forall x :: x in r <==> x in xs && filter(x)
  {
    if xs == [] then []
    else if filter(xs[0]) then [xs[0]] + Where(xs[1..], filter)
    else Where(xs[1..], filter)
  }

  /** `Filter(filter)`: the entries satisfying `filter`, in their order. */
  function Filter(f: Files, filter: Timestamped -> bool): (r: Files)
    ensures forall x :: x in Enumerate(r) <==> x in Enumerate(f) && filter(x)
  {
    Files(Where(f.files, filter))
  }

  /** Filtering a concatenation filters each part and keeps them in order. */
  lemma {:induction false} WhereDistributes(xs: seq<Timestamped>, ys: seq<Timestamped>, filter: Timestamped -> bool)
    ensures Where(xs + ys, filter) == Where(xs, filter) + Where(ys, filter)
  {
    if xs == [] {
      assert xs + ys == ys;
    } else {
      assert (xs + ys)[0] == xs[0];
      assert (xs + ys)[1..] == xs[1..] + ys;
      WhereDistributes(xs[1..], ys, filter);
    }
  }

  /** Filtering an expanded list is expanding the filtered lists. */
  lemma FilterDistributesOverExpandWith(f: Files, other: Files, filter: Timestamped -> bool)
    ensures Filter(ExpandWith(f, other), filter) == ExpandWith(Filter(f, filter), Filter(other, filter))
  {
    WhereDistributes(f.files, other.files, filter);
  }

  /** Filtering twice with two conditions is filtering once with both. */
  lemma {:induction false} WhereComposes(xs: seq<Timestamped>, p: Timestamped -> bool, q: Timestamped -> bool)
    ensures Where(Where(xs, p), q) == Where(xs, x => p(x) && q(x))
  {
    if xs != [] {
      WhereComposes(xs[1..], p, q);
      if p(xs[0]) {
        assert ([xs[0]] + Where(xs[1..], p))[0] == xs[0];
        assert ([xs[0]] + Where(xs[1..], p))[1..] == Where(xs[1..], p);
      }
    }
  }

  /** Filtering is idempotent, and a filter that holds everywhere keeps everything. */
  lemma FilterIdempotent(f: Files, filter: Timestamped -> bool)
    ensures Filter(Filter(f, filter), filter) == Filter(f, filter)
  {
    WhereComposes(f.files, filter, filter);
    WhereSameFilter(f.files, filter, x => filter(x) && filter(x));
  }

  /** Two filters that agree on every entry select the same entries. */
  lemma {:induction false} WhereSameFilter(xs: seq<Timestamped>, p: Timestamped -> bool, q: Timestamped -> bool)
    requires forall x :: p(x) == q(x)
    ensures Where(xs, p) == Where(xs, q)
  {
    if xs != [] {
      WhereSameFilter(xs[1..], p, q);
    }
  }

  /** A filter that accepts every entry keeps the whole list. */
  lemma {:induction false} WhereAll(xs: seq<Timestamped>, filter: Timestamped -> bool)
    requires forall x :: x in xs ==> filter(x)
    ensures Where(xs, filter) == xs
  {
    if xs != [] {
      assert forall x :: x in xs[1..] ==> x in xs;
      WhereAll(xs[1..], filter);
      assert [xs[0]] + xs[1..] == xs;
    }
  }
}

=== FILE: framework_resolver.dfy ===
/**
 * Resolution of .NET framework assemblies on Windows
 * (Libs/Bud.References/WindowsFrameworkReferenceResolver.cs): the framework
 * directories, ordered by descending version and then descending path, are
 * searched for the first one whose version does not exceed the requested one
 * and that holds the assembly's dll.
 *
 * Which directories exist and which files exist are the parameters
 * `dirExists` and `fileExists`; the directory list gathered from the
 * file system and the registry is the parameter `list`.
 */
module FrameworkReferences {
  import opened Optional
  import opened Paths

  /** `System.Version`: major, minor, build and revision, an absent component being -1. */
  datatype Version = Version(major: int, minor: int, build: int, revision: int)

  /** `int.MaxValue`. */
  const IntMaxValue: int := 2147483647

  /** A version as `System.Version` can hold one: each component -1 up to `int.MaxValue`. */
  predicate ValidVersion(v: Version) {
    -1 <= v.major <= IntMaxValue && -1 <= v.minor <= IntMaxValue
    && -1 <= v.build <= IntMaxValue && -1 <= v.revision <= IntMaxValue
  }

  /** The version that stands for "any": every component `int.MaxValue`. */
  const MaxVersion: Version := Version(IntMaxValue, IntMaxValue, IntMaxValue, IntMaxValue)

  /** The sign of comparing two integers. */
  function CompareInt(a: int, b: int): int {
    if a < b then -1 else if a > b then 1 else 0
  }

  /** `Version.CompareTo`: component by component, major first. */
  function CompareVersions(a: Version, b: Version): (r: int)
    ensures r == 0 <==> a == b
    ensures -1 <= r <= 1
  {
    if a.major != b.major then CompareInt(a.major, b.major)
    else if a.minor != b.minor then CompareInt(a.minor, b.minor)
    else if a.build != b.build then CompareInt(a.build, b.build)
    else CompareInt(a.revision, b.revision)
  }

  /** Version comparison is antisymmetric. */
  lemma CompareVersionsAntisymmetric(a: Version, b: Version)
    ensures CompareVersions(a, b) == -CompareVersions(b, a)
  {
  }

  /** Version order is transitive. */
  lemma CompareVersionsTransitive(a: Version, b: Version, c: Version)
    requires CompareVersions(a, b) < 0 && CompareVersions(b, c) < 0
    ensures CompareVersions(a, c) < 0
  {
  }

  /** Every valid version is at most the maximal one. */
  lemma AtMostMaxVersion(v: Version)
    requires ValidVersion(v)
    ensures CompareVersions(MaxVersion, v) >= 0
  {
  }

  /** `string.Compare(a, b, StringComparison.Ordinal)`, as a sign: character codes, then length. */
  function CompareOrdinal(a: string, b: string): (r: int)
    ensures -1 <= r <= 1
    decreases |a|
  {
    if a == [] && b == [] then 0
    else if a == [] then -1
    else if b == [] then 1
    else if a[0] != b[0] then CompareInt(a[0] as int, b[0] as int)
    else CompareOrdinal(a[1..], b[1..])
  }

  /** Ordinal comparison is zero exactly on equal strings and is antisymmetric. */
  lemma {:induction false} CompareOrdinalProperties(a: string, b: string)
    ensures CompareOrdinal(a, b) == 0 <==> a == b
    ensures CompareOrdinal(a, b) == -CompareOrdinal(b, a)
    decreases |a|
  {
    if a != [] && b != [] && a[0] == b[0] {
      CompareOrdinalProperties(a[1..], b[1..]);
      if a[1..] == b[1..] {
        assert a == [a[0]] + a[1..] && b == [b[0]] + b[1..];
      }
    }
  }

  /** Ordinal order is transitive. */
  lemma {:induction false} CompareOrdinalTransitive(a: string, b: string, c: string)
    requires CompareOrdinal(a, b) < 0 && CompareOrdinal(b, c) < 0
    ensures CompareOrdinal(a, c) < 0
    decreases |a|
  {
    if a != [] && b != [] && c != [] && a[0] == b[0] && b[0] == c[0] {
      CompareOrdinalTransitive(a[1..], b[1..], c[1..]);
    }
  }

  /** A proper prefix sorts before the longer string. */
  lemma {:induction false} PrefixSortsFirst(a: string, b: string)
    requires a < b
    ensures CompareOrdinal(a, b) < 0
    decreases |a|
  {
    if a != [] {
      assert a[1..] < b[1..];
      PrefixSortsFirst(a[1..], b[1..]);
    }
  }

  /** `FrameworkDir`: a directory and the framework version it holds. */
  datatype FrameworkDir = FrameworkDir(version: Version, dir: string)

  /**
   * `FrameworkDirComparer.Compare`: by descending version, and for equal
   * versions by descending ordinal directory path. Negative means `x` first.
   */
  function Compare(x: FrameworkDir, y: FrameworkDir): (r: int)
    ensures r == 0 <==> x == y
    ensures CompareVersions(x.version, y.version) > 0 ==> r < 0
    ensures CompareVersions(x.version, y.version) < 0 ==> r > 0
  {
    var versionComparison := CompareVersions(y.version, x.version);
    CompareVersionsAntisymmetric(x.version, y.version);
    CompareOrdinalProperties(y.dir, x.dir);
    if versionComparison == 0 then CompareOrdinal(y.dir, x.dir) else versionComparison
  }

  /** The comparer is antisymmetric. */
  lemma CompareAntisymmetric(x: FrameworkDir, y: FrameworkDir)
    ensures Compare(x, y) == -Compare(y, x)
  {
    CompareVersionsAntisymmetric(x.version, y.version);
    CompareOrdinalProperties(y.dir, x.dir);
  }

  /** The comparer is transitive. */
  lemma CompareTransitive(x: FrameworkDir, y: FrameworkDir, z: FrameworkDir)
    requires Compare(x, y) < 0 && Compare(y, z) < 0
    ensures Compare(x, z) < 0
  {
    CompareOrdinalProperties(z.dir, x.dir);
    var yx := CompareVersions(y.version, x.version);
    var zy := CompareVersions(z.version, y.version);
    if yx == 0 && zy == 0 {
      CompareOrdinalTransitive(z.dir, y.dir, x.dir);
    } else if yx < 0 && zy < 0 {
      CompareVersionsTransitive(z.version, y.version, x.version);
    }
  }

  /**
   * A `Facades` directory of a version sorts before the version's own
   * directory, so its assemblies are found first.
   */
  lemma FacadesFirst(version: Version, dir: string)
    ensures Compare(FrameworkDir(version, Combine(dir, "Facades")), FrameworkDir(version, dir)) < 0
  {
    var facades := Combine(dir, "Facades");
    assert dir < facades;
    PrefixSortsFirst(dir, facades);
    CompareOrdinalProperties(dir, facades);
  }

  /** Strictly increasing under the comparer: no duplicates, each before the next. */
  predicate StrictlySorted(dirs: seq<FrameworkDir>) {
    forall i, j :: 0 <= i < j < |dirs| ==> Compare(dirs[i], dirs[j]) < 0
  }

  /** An entry before the first of a sorted sequence comes before all of them. */
  lemma BeforeFirstIsBeforeAll(d: FrameworkDir, dirs: seq<FrameworkDir>)
    requires StrictlySorted(dirs) && dirs != [] && Compare(d, dirs[0]) < 0
    ensures forall x :: x in dirs ==> Compare(d, x) < 0
  {
    forall x | x in dirs
      ensures Compare(d, x) < 0
    {
      if x != dirs[0] { CompareTransitive(d, dirs[0], x); }
    }
  }

  /** Putting an entry that comes before all of a sorted sequence in front keeps it sorted. */
  lemma ConsSorted(d: FrameworkDir, dirs: seq<FrameworkDir>)
    requires StrictlySorted(dirs) && forall x :: x in dirs ==> Compare(d, x) < 0
    ensures StrictlySorted([d] + dirs)
  {
    forall i, j | 0 <= i < j < |[d] + dirs|
      ensures Compare(([d] + dirs)[i], ([d] + dirs)[j]) < 0
    {
      if i > 0 {
        assert ([d] + dirs)[i] == dirs[i - 1];
      }
      assert ([d] + dirs)[j] == dirs[j - 1];
    }
  }

  /** Adding to an immutable sorted set: in place by the comparer, nothing if an equal entry is there. */
  function Insert(dirs: seq<FrameworkDir>, d: FrameworkDir): (r: seq<FrameworkDir>)
    requires StrictlySorted(dirs)
    ensures StrictlySorted(r)
    ensures forall x :: x in r <==> x in dirs || x == d
  {
    if dirs == [] then [d]
    else if Compare(d, dirs[0]) < 0 then
      BeforeFirstIsBeforeAll(d, dirs);
      ConsSorted(d, dirs);
      [d] + dirs
    else if Compare(d, dirs[0]) == 0 then dirs
    else
      var tail := dirs[1..];
      assert dirs == [dirs[0]] + tail;
      var rest := Insert(tail, d);
      CompareAntisymmetric(d, dirs[0]);
      ConsSorted(dirs[0], rest);
      [dirs[0]] + rest
  }

  /**
   * The sorted set built at the end of `GetFrameworkDirs`: the listed
   * directories that exist, ordered by the comparer, each once.
   */
  function ToSortedSet(list: seq<FrameworkDir>, dirExists: string -> bool): (r: seq<FrameworkDir>)
    ensures StrictlySorted(r)
    ensures forall x :: x in r <==> x in list && dirExists(x.dir)
  {
    if list == [] then []
    else
      var rest := ToSortedSet(list[..|list| - 1], dirExists);
      var last := list[|list| - 1];
      assert list == list[..|list| - 1] + [last];
      if dirExists(last.dir) then Insert(rest, last) else rest
  }

  /** Sorted framework directories come in order of non-increasing version. */
  lemma SortedByDescendingVersion(dirs: seq<FrameworkDir>, i: int, j: int)
    requires StrictlySorted(dirs) && 0 <= i < j < |dirs|
    ensures CompareVersions(dirs[i].version, dirs[j].version) >= 0
  {
  }

  /** Whether directory `d` may hold the assembly: its version is at most the requested one. */
  predicate Eligible(version: Version, d: FrameworkDir) {
    CompareVersions(version, d.version) >= 0
  }

  /** The version searched for: the requested one, or the maximal one when its major is 0. */
  function EffectiveVersion(version: Version): (r: Version)
    ensures version.major == 0 ==> r == MaxVersion
    ensures version.major != 0 ==> r == version
  {
    if version.major == 0 then MaxVersion else version
  }

  /** Whether `dirs[i]` is eligible and holds `dllName`. */
  predicate Holds(dirs: seq<FrameworkDir>, i: int, version: Version, dllName: string, fileExists: string -> bool)
    requires 0 <= i < |dirs|
  {
    Eligible(version, dirs[i]) && fileExists(Combine(dirs[i].dir, dllName))
  }

  /** The first eligible directory, in order, whose `dir\dllName` exists. */
  function FirstExisting(dirs: seq<FrameworkDir>, version: Version, dllName: string, fileExists: string -> bool): Option<string> {
    if dirs == [] then None
    else if Eligible(version, dirs[0]) && fileExists(Combine(dirs[0].dir, dllName)) then
      Some(Combine(dirs[0].dir, dllName))
    else
      FirstExisting(dirs[1..], version, dllName, fileExists)
  }

  /** The holders among the directories after the first are those of the tail, shifted by one. */
  lemma HoldsInTail(dirs: seq<FrameworkDir>, version: Version, dllName: string, fileExists: string -> bool)
    requires dirs != []
    ensures forall i :: 1 <= i < |dirs| ==>
              Holds(dirs, i, version, dllName, fileExists) == Holds(dirs[1..], i - 1, version, dllName, fileExists)
  {
    forall i | 1 <= i < |dirs|
      ensures Holds(dirs, i, version, dllName, fileExists) == Holds(dirs[1..], i - 1, version, dllName, fileExists)
    {
      assert dirs[i] == dirs[1..][i - 1];
    }
  }

  /** The search finds nothing exactly when no directory is eligible and holds the file. */
  lemma {:induction false} FirstExistingNoneIffNoHolder(dirs: seq<FrameworkDir>, version: Version, dllName: string, fileExists: string -> bool)
    ensures FirstExisting(dirs, version, dllName, fileExists).None?
        <==> forall i :: 0 <= i < |dirs| ==> !Holds(dirs, i, version, dllName, fileExists)
  {
    if dirs == [] {
    } else if Holds(dirs, 0, version, dllName, fileExists) {
      assert FirstExisting(dirs, version, dllName, fileExists).Some?;
    } else {
      var tail := dirs[1..];
      FirstExistingNoneIffNoHolder(tail, version, dllName, fileExists);
      HoldsInTail(dirs, version, dllName, fileExists);
      assert FirstExisting(dirs, version, dllName, fileExists) == FirstExisting(tail, version, dllName, fileExists);
      if forall i :: 0 <= i < |tail| ==> !Holds(tail, i, version, dllName, fileExists) {
        assert forall i :: 0 <= i < |dirs| ==> !Holds(dirs, i, version, dllName, fileExists);
      } else {
        var i :| 0 <= i < |tail| && Holds(tail, i, version, dllName, fileExists);
        assert Holds(dirs, i + 1, version, dllName, fileExists);
      }
    }
  }

  /** A path found by the search lies in the first directory that is eligible and holds the file. */
  lemma {:induction false} FirstExistingSomeIsFirstHolder(dirs: seq<FrameworkDir>, version: Version, dllName: string, fileExists: string -> bool)
    ensures var r := FirstExisting(dirs, version, dllName, fileExists);
            r.Some? ==> exists i :: 0 <= i < |dirs| && Holds(dirs, i, version, dllName, fileExists)
                                    && r.value == Combine(dirs[i].dir, dllName)
                                    && forall j :: 0 <= j < i ==> !Holds(dirs, j, version, dllName, fileExists)
  {
    if dirs == [] {
    } else if Holds(dirs, 0, version, dllName, fileExists) {
      assert FirstExisting(dirs, version, dllName, fileExists) == Some(Combine(dirs[0].dir, dllName));
    } else {
      var tail := dirs[1..];
      FirstExistingSomeIsFirstHolder(tail, version, dllName, fileExists);
      var r := FirstExisting(tail, version, dllName, fileExists);
      assert FirstExisting(dirs, version, dllName, fileExists) == r;
      if r.Some? {
        HoldsInTail(dirs, version, dllName, fileExists);
        var i :| 0 <= i < |tail| && Holds(tail, i, version, dllName, fileExists)
                 && r.value == Combine(tail[i].dir, dllName)
                 && forall j :: 0 <= j < i ==> !Holds(tail, j, version, dllName, fileExists);
        assert Holds(dirs, i + 1, version, dllName, fileExists);
        assert forall j :: 0 <= j < i + 1 ==> !Holds(dirs, j, version, dllName, fileExists);
      }
    }
  }

  /**
   * The search finds nothing exactly when no directory is eligible and holds
   * the file, and otherwise returns the path in the first one that is.
   */
  lemma FirstExistingIsFirst(dirs: seq<FrameworkDir>, version: Version, dllName: string, fileExists: string -> bool)
    ensures var r := FirstExisting(dirs, version, dllName, fileExists);
            && (r.None? <==> forall i :: 0 <= i < |dirs| ==> !Holds(dirs, i, version, dllName, fileExists))
            && (r.Some? ==> exists i :: 0 <= i < |dirs| && Holds(dirs, i, version, dllName, fileExists)
                                        && r.value == Combine(dirs[i].dir, dllName)
                                        && forall j :: 0 <= j < i ==> !Holds(dirs, j, version, dllName, fileExists))
  {
    FirstExistingNoneIffNoHolder(dirs, version, dllName, fileExists);
    FirstExistingSomeIsFirstHolder(dirs, version, dllName, fileExists);
  }

  /**
   * `ResolveFrameworkAssembly(assemblyName, version)`: the path of
   * `assemblyName.dll` in the first framework directory, in order, whose
   * version is at most the requested one (any version when its major is 0)
   * and that holds the file; `None` when there is none.
   */
  function ResolveFrameworkAssembly(assemblyName: string, version: Version, frameworkDirs: seq<FrameworkDir>, fileExists: string -> bool): (r: Option<string>)
    ensures r.None? <==> forall i :: 0 <= i < |frameworkDirs| ==>
              !Holds(frameworkDirs, i, EffectiveVersion(version), assemblyName + ".dll", fileExists)
    ensures r.Some? ==> exists i :: (0 <= i < |frameworkDirs| && Holds(frameworkDirs, i, EffectiveVersion(version), assemblyName + ".dll", fileExists)
                                     && r.value == Combine(frameworkDirs[i].dir, assemblyName + ".dll")
                                     && forall j :: 0 <= j < i ==> !Holds(frameworkDirs, j, EffectiveVersion(version), assemblyName + ".dll", fileExists))
  {
    var dllName := assemblyName + ".dll";
    FirstExistingIsFirst(frameworkDirs, EffectiveVersion(version), dllName, fileExists);
    FirstExisting(frameworkDirs, EffectiveVersion(version), dllName, fileExists)
  }

  /** Asked for any version (major 0), every valid framework directory is eligible. */
  lemma AnyVersionMakesEveryDirEligible(version: Version, d: FrameworkDir)
    requires version.major == 0 && ValidVersion(d.version)
    ensures Eligible(EffectiveVersion(version), d)
  {
    AtMostMaxVersion(d.version);
  }

  /**
   * Asked for any version, resolution finds the dll exactly when some framework
   * directory holds it.
   */
  lemma AnyVersionSearchesEveryDir(assemblyName: string, version: Version, frameworkDirs: seq<FrameworkDir>, fileExists: string -> bool)
    requires version.major == 0
    requires forall i :: 0 <= i < |frameworkDirs| ==> ValidVersion(frameworkDirs[i].version)
    ensures ResolveFrameworkAssembly(assemblyName, version, frameworkDirs, fileExists).Some?
            <==> exists i :: 0 <= i < |frameworkDirs| && fileExists(Combine(frameworkDirs[i].dir, assemblyName + ".dll"))
  {
    var v := EffectiveVersion(version);
    var dllName := assemblyName + ".dll";
    forall i | 0 <= i < |frameworkDirs|
      ensures Holds(frameworkDirs, i, v, dllName, fileExists) == fileExists(Combine(frameworkDirs[i].dir, dllName))
    {
      AnyVersionMakesEveryDirEligible(version, frameworkDirs[i]);
    }
  }

  /**
   * With only a version's directory and its `Facades` directory present, the
   * sorted set is the facade, then the version's own directory.
   */
  lemma SortedSetPutsFacadesFirst(v: Version, dir: string, dirExists: string -> bool)
    requires dirExists(dir) && dirExists(Combine(dir, "Facades"))
    ensures ToSortedSet([FrameworkDir(v, dir), FrameworkDir(v, Combine(dir, "Facades"))], dirExists)
         == [FrameworkDir(v, Combine(dir, "Facades")), FrameworkDir(v, dir)]
  {
    var own := FrameworkDir(v, dir);
    var facades := FrameworkDir(v, Combine(dir, "Facades"));
    FacadesFirst(v, dir);
    assert [own, facades][..1] == [own];
    assert [own][..0] == [];
    assert ToSortedSet([own], dirExists) == [own];
  }

  /**
   * In a set of just a version's directory and its `Facades` directory, when
   * the facade holds the dll, resolution returns the facade path even when the
   * version's own directory holds it too.
   */
  lemma FacadeWins(assemblyName: string, version: Version, v: Version, dir: string, dirExists: string -> bool, fileExists: string -> bool)
    requires dirExists(dir) && dirExists(Combine(dir, "Facades"))
    requires CompareVersions(EffectiveVersion(version), v) >= 0
    requires fileExists(Combine(Combine(dir, "Facades"), assemblyName + ".dll"))
    ensures ResolveFrameworkAssembly(assemblyName, version, ToSortedSet([FrameworkDir(v, dir), FrameworkDir(v, Combine(dir, "Facades"))], dirExists), fileExists)
         == Some(Combine(Combine(dir, "Facades"), assemblyName + ".dll"))
  {
    SortedSetPutsFacadesFirst(v, dir, dirExists);
  }

  /**
   * In any sorted set of framework directories, a version's `Facades`
   * directory comes before the version's own directory, though other
   * directories of the same version may sit between them.
   */
  lemma FacadeBeforeOwn(dirs: seq<FrameworkDir>, v: Version, dir: string, i: int, j: int)
    requires StrictlySorted(dirs) && 0 <= i < |dirs| && 0 <= j < |dirs|
    requires dirs[i] == FrameworkDir(v, Combine(dir, "Facades")) && dirs[j] == FrameworkDir(v, dir)
    ensures i < j
  {
    FacadesFirst(v, dir);
    CompareAntisymmetric(dirs[i], dirs[j]);
  }

  /**
   * In any sorted set, when a version's `Facades` directory is eligible and
   * holds the dll, resolution returns the dll from that directory or from one
   * placed before it, and so never from the version's own directory.
   */
  lemma FacadeWinsOverOwn(assemblyName: string, version: Version, dirs: seq<FrameworkDir>, fileExists: string -> bool,
                          v: Version, dir: string, i: int, j: int)
    requires StrictlySorted(dirs) && 0 <= i < |dirs| && 0 <= j < |dirs|
    requires dirs[i] == FrameworkDir(v, Combine(dir, "Facades")) && dirs[j] == FrameworkDir(v, dir)
    requires CompareVersions(EffectiveVersion(version), v) >= 0
    requires fileExists(Combine(Combine(dir, "Facades"), assemblyName + ".dll"))
    ensures i < j
    ensures exists k :: 0 <= k <= i
              && ResolveFrameworkAssembly(assemblyName, version, dirs, fileExists) == Some(Combine(dirs[k].dir, assemblyName + ".dll"))
  {
    FacadeBeforeOwn(dirs, v, dir, i, j);
    var w, dllName := EffectiveVersion(version), assemblyName + ".dll";
    assert Holds(dirs, i, w, dllName, fileExists);
    var r := ResolveFrameworkAssembly(assemblyName, version, dirs, fileExists);
    var k :| 0 <= k < |dirs| && Holds(dirs, k, w, dllName, fileExists)
             && r.value == Combine(dirs[k].dir, dllName)
             && forall m :: 0 <= m < k ==> !Holds(dirs, m, w, dllName, fileExists);
    assert k <= i;
  }

  /** `IsFrameworkAssembly(dll)`: some framework directory holds `dll`, taken as given. */
  function IsFrameworkAssembly(dll: string, frameworkDirs: seq<FrameworkDir>, fileExists: string -> bool): (r: bool)
    ensures r <==> exists i :: 0 <= i < |frameworkDirs| && fileExists(Combine(frameworkDirs[i].dir, dll))
  {
    if frameworkDirs == [] then false
    else if fileExists(Combine(frameworkDirs[0].dir, dll)) then true
    else
      assert forall i :: 1 <= i < |frameworkDirs| ==> frameworkDirs[i] == frameworkDirs[1..][i - 1];
      IsFrameworkAssembly(dll, frameworkDirs[1..], fileExists)
  }

  /** With an empty name the membership test probes the framework directories themselves. */
  lemma EmptyNameProbesDirs(frameworkDirs: seq<FrameworkDir>, fileExists: string -> bool)
    ensures IsFrameworkAssembly("", frameworkDirs, fileExists)
        <==> exists i :: 0 <= i < |frameworkDirs| && fileExists(frameworkDirs[i].dir)
  {
    if IsFrameworkAssembly("", frameworkDirs, fileExists) {
      var i :| 0 <= i < |frameworkDirs| && fileExists(Combine(frameworkDirs[i].dir, ""));
      assert fileExists(frameworkDirs[i].dir);
    }
    if exists i :: 0 <= i < |frameworkDirs| && fileExists(frameworkDirs[i].dir) {
      var i :| 0 <= i < |frameworkDirs| && fileExists(frameworkDirs[i].dir);
      assert Combine(frameworkDirs[i].dir, "") == frameworkDirs[i].dir;
    }
  }

  /**
   * Unlike resolution, the membership test ignores versions and does not add
   * ".dll": a dll found by resolution is a framework assembly under its file name.
   */
  lemma ResolvedIsFrameworkAssembly(assemblyName: string, version: Version, frameworkDirs: seq<FrameworkDir>, fileExists: string -> bool)
    requires ResolveFrameworkAssembly(assemblyName, version, frameworkDirs, fileExists).Some?
    ensures IsFrameworkAssembly(assemblyName + ".dll", frameworkDirs, fileExists)
  {
  }
}

=== FILE: graph_scope.dfy ===
/**
 * The concatenating scope design (Graph/Scope.cs): a scope placed `In` another
 * is concatenated onto it, id chain after id chain.
 */
module GraphScopes {
  import opened ScopeTree

  /** `IsGlobal`: the scope is its own parent. */
  predicate IsGlobal(s: Scope) {
    Parent(s) == s
  }

  /** Only the root is its own parent. */
  lemma IsGlobalOnlyForRoot(s: Scope)
    ensures IsGlobal(s) <==> s == Global
  {
  }

  /**
   * `Concat(parentScope, childScope)`: the child's non-root ids re-rooted under
   * the parent scope; the depths add up, less the one root they share.
   */
  function Concat(parentScope: Scope, childScope: Scope): (r: Scope)
    ensures Depth(r) == Depth(parentScope) + Depth(childScope) - 1
    decreases childScope
  {
    IsGlobalOnlyForRoot(parentScope);
    IsGlobalOnlyForRoot(childScope);
    if IsGlobal(parentScope) then childScope
    else if IsGlobal(childScope) then parentScope
    else WithParent(childScope.id, Concat(parentScope, childScope.parent))
  }

  /** The ids of a scope below the root, from the top down. */
  function Below(s: Scope): (r: seq<string>)
    ensures |r| == Depth(s) - 1
  {
    if s.Global? then [] else Below(s.parent) + [s.id]
  }

  /** A scope's ids are the root's id followed by the ids below it. */
  lemma {:induction false} IdsAreRootThenBelow(s: Scope)
    ensures Ids(s) == [GlobalId] + Below(s)
  {
    if s.Child? {
      IdsAreRootThenBelow(s.parent);
      assert ([GlobalId] + Below(s.parent)) + [s.id] == [GlobalId] + (Below(s.parent) + [s.id]);
    }
  }

  /** The ids below the root are the id chain without its first element. */
  lemma BelowDropsRoot(s: Scope)
    ensures Below(s) == Ids(s)[1..]
  {
    IdsAreRootThenBelow(s);
  }

  /** The ids of a concatenation: the parent's, then the child's below its root. */
  lemma {:induction false} ConcatIds(parentScope: Scope, childScope: Scope)
    ensures Ids(Concat(parentScope, childScope)) == Ids(parentScope) + Below(childScope)
    decreases childScope
  {
    if parentScope.Global? {
      IdsAreRootThenBelow(childScope);
    } else if childScope.Child? {
      ConcatIds(parentScope, childScope.parent);
      var a, b := Ids(parentScope), Below(childScope.parent);
      assert (a + b) + [childScope.id] == a + (b + [childScope.id]);
    }
  }

  /** Below the root, a concatenation holds the parent's ids and then the child's. */
  lemma {:induction false} BelowConcat(parentScope: Scope, childScope: Scope)
    ensures Below(Concat(parentScope, childScope)) == Below(parentScope) + Below(childScope)
    decreases childScope
  {
    if parentScope.Global? {
      assert Below(parentScope) + Below(childScope) == Below(childScope);
    } else if childScope.Global? {
      assert Below(parentScope) + Below(childScope) == Below(parentScope);
    } else {
      BelowConcat(parentScope, childScope.parent);
      var a, b := Below(parentScope), Below(childScope.parent);
      assert (a + b) + [childScope.id] == a + (b + [childScope.id]);
    }
  }

  /** The root is a unit of concatenation on both sides. */
  lemma ConcatWithRoot(s: Scope)
    ensures Concat(Global, s) == s
    ensures Concat(s, Global) == s
  {
  }

  /** Concatenation is associative. */
  lemma ConcatAssociative(a: Scope, b: Scope, c: Scope)
    ensures Concat(Concat(a, b), c) == Concat(a, Concat(b, c))
  {
    var left, right := Concat(Concat(a, b), c), Concat(a, Concat(b, c));
    BelowConcat(a, b);
    BelowConcat(Concat(a, b), c);
    BelowConcat(b, c);
    BelowConcat(a, Concat(b, c));
    assert Below(left) == Below(right);
    IdsAreRootThenBelow(left);
    IdsAreRootThenBelow(right);
    IdsInjective(left, right);
  }

  /** `In(parent)`: this scope concatenated onto `parent`. */
  function In(s: Scope, parent: Scope): (r: Scope)
    ensures Ids(r) == Ids(parent) + Below(s)
  {
    ConcatIds(parent, s);
    Concat(parent, s)
  }

  /** A new scope placed in a non-root scope becomes its child. */
  lemma InNewIsChild(id: string, parent: Scope)
    requires parent != Global
    ensures In(New(id), parent) == WithParent(id, parent)
  {
    assert Concat(parent, Global) == parent;
  }

  /**
   * Placing scopes inside one another accumulates every id:
   * A in E in D in foo in C in B renders as "Global:B:C:foo:D:E:A".
   */
  lemma DeepNestingRendersEveryId()
    ensures ToString(In(New("A"), In(New("E"), In(New("D"), In(New("foo"), In(New("C"), New("B")))))))
         == "Global:B:C:foo:D:E:A"
  {
    var b := New("B");
    assert AppendAsString(b) == "Global:B";
    InNewIsChild("C", b);
    var c := WithParent("C", b);
    assert AppendAsString(c) == "Global:B:C";
    InNewIsChild("foo", c);
    var foo := WithParent("foo", c);
    assert AppendAsString(foo) == "Global:B:C:foo";
    InNewIsChild("D", foo);
    var d := WithParent("D", foo);
    assert AppendAsString(d) == "Global:B:C:foo:D";
    InNewIsChild("E", d);
    var e := WithParent("E", d);
    assert AppendAsString(e) == "Global:B:C:foo:D:E";
    InNewIsChild("A", e);
    assert AppendAsString(WithParent("A", e)) == "Global:B:C:foo:D:E:A";
  }
}

=== FILE: keys.dfy ===
/**
 * Configuration and task keys (Bud/Key.cs): a path-shaped identifier whose
 * segments are joined with '/', tagged with the type of the value it names.
 */
module Keys {

  /** The runtime type a key names (`typeof(T)` of `Key<T>`), by its name. */
  type TypeTag = string

  /** `Key<T>`: its `Id` and, as `Type`, the tag of `T`. */
  datatype Key = Key(id: string, valueType: TypeTag)

  /** The constructor `new Key<T>(id)`, and the implicit conversion from a string. */
  function FromId(id: string, valueType: TypeTag): (k: Key)
    ensures k.id == id && k.valueType == valueType
  {
    Key(id, valueType)
  }

  /** The implicit conversion from a key to its id. */
  function ToId(k: Key): string {
    k.id
  }

  /** Converting a string to a key and back gives the string. */
  lemma IdRoundTrip(id: string, valueType: TypeTag)
    ensures ToId(FromId(id, valueType)) == id
    ensures FromId(ToId(Key(id, valueType)), valueType) == Key(id, valueType)
  {
  }

  /**
   * The indexer `key[configs]`: the value `configs.Get(key)` returns for this
   * very key, with `get` standing for `configs.Get`.
   */
  function Lookup<V>(k: Key, get: Key -> V): (r: V)
    ensures r == get(Key(k.id, k.valueType))
  {
    get(k)
  }

  /** `prefix / key`: the key nested under `prefix`, naming the same type. */
  function Nest(prefix: string, key: Key): (r: Key)
    ensures r.valueType == key.valueType
    ensures |r.id| == |prefix| + 1 + |key.id|
    ensures r.id[..|prefix|] == prefix && r.id[|prefix|] == '/' && r.id[|prefix| + 1..] == key.id
  {
    FromId(prefix + "/" + key.id, key.valueType)
  }

  /** Nesting composes left to right: `a / (b / k)` has id `a/b/k`. */
  lemma NestTwice(a: string, b: string, k: Key)
    ensures Nest(a, Nest(b, k)) == Key(a + "/" + b + "/" + k.id, k.valueType)
  {
  }

  /**
   * The key under which a key relative to the directory `dir` is stored: the
   * key nested, with `/`, under each directory segment from the innermost out.
   */
  function Qualified(dir: seq<string>, key: Key): (r: Key)
    ensures r.valueType == key.valueType
  {
    if dir == [] then key else Nest(dir[0], Qualified(dir[1..], key))
  }

  /** Going one directory deeper nests the key under the new segment first. */
  lemma {:induction false} QualifiedSnoc(dir: seq<string>, segment: string, key: Key)
    ensures Qualified(dir + [segment], key) == Qualified(dir, Nest(segment, key))
  {
    if dir != [] {
      assert (dir + [segment])[1..] == dir[1..] + [segment];
      QualifiedSnoc(dir[1..], segment, key);
    }
  }

  /** Qualifying under `d1 + d2` is qualifying under `d2`, then under `d1`. */
  lemma {:induction false} QualifiedAppend(d1: seq<string>, d2: seq<string>, key: Key)
    ensures Qualified(d1 + d2, key) == Qualified(d1, Qualified(d2, key))
  {
    if d1 == [] {
      assert d1 + d2 == d2;
    } else {
      assert (d1 + d2)[1..] == d1[1..] + d2;
      QualifiedAppend(d1[1..], d2, key);
    }
  }

  /** The string prefix that qualifies ids under `dir`: each segment followed by '/'. */
  function DirPrefix(dir: seq<string>): string {
    if dir == [] then "" else dir[0] + "/" + DirPrefix(dir[1..])
  }

  /**
   * Prefixing the id with `DirPrefix(dir)` as a plain string does the same as
   * nesting the key under every segment of `dir`.
   */
  lemma {:induction false} QualifiedIsPrefixed(dir: seq<string>, key: Key)
    ensures Qualified(dir, key).id == DirPrefix(dir) + key.id
  {
    if dir != [] {
      QualifiedIsPrefixed(dir[1..], key);
      assert dir[0] + "/" + (DirPrefix(dir[1..]) + key.id) == dir[0] + "/" + DirPrefix(dir[1..]) + key.id;
    }
  }
}

=== FILE: modify_config.dfy ===
/**
 * The modifying instruction (Bud/Configuration/ModifyConfig.cs): wrap the
 * existing definition of a key in a modifier, or fail when there is none.
 */
module ModifyConfigs {
  import opened Failures
  import opened Optional
  import opened Keys
  import opened Definitions

  /** `ConfigDefinitionException`, naming the key that could not be modified. */
  datatype ConfigDefinitionError = NoPreviousDefinition(key: Key)

  /** `ModifyConfig<T>`: the optional prefix, the (prefixed) key, and the modifier `ValueFactory`. */
  datatype ModifyConfig = ModifyConfig(prefix: Option<string>, key: Key, valueFactory: string)

  /** The private constructor: with a prefix, the key is the plain concatenation `prefix + key`. */
  function Make(prefix: Option<string>, key: Key, valueFactory: string): (mc: ModifyConfig)
    ensures mc.prefix == prefix && mc.valueFactory == valueFactory
    ensures mc.key.valueType == key.valueType
    ensures prefix.None? ==> mc.key == key
    ensures prefix.Some? ==> mc.key.id == prefix.value + key.id
  {
    ModifyConfig(prefix, if prefix.None? then key else FromId(prefix.value + key.id, key.valueType), valueFactory)
  }

  /** The public constructor: no prefix, the key as given. */
  function New(key: Key, valueFactory: string): (mc: ModifyConfig)
    ensures mc == ModifyConfig(None, key, valueFactory)
  {
    Make(None, key, valueFactory)
  }

  /** `Nest(parentKey)`: the same key and modifier, prefixed with `parentKey`. */
  function Nest(mc: ModifyConfig, parentKey: string): (r: ModifyConfig)
    ensures r.prefix == Some(parentKey) && r.valueFactory == mc.valueFactory
    ensures r.key.id == parentKey + mc.key.id && r.key.valueType == mc.key.valueType
  {
    Make(Some(parentKey), mc.key, mc.valueFactory)
  }

  /**
   * `Modify(configDefinition)`: a definition that, on every invocation, invokes
   * the previous one exactly once with the same configuration and then the
   * modifier on its result; the modifier gets that configuration, nested under
   * the prefix when there is one.
   */
  function Modify<V>(mc: ModifyConfig, configDefinition: Def<V>): (r: Def<V>)
    ensures forall view :: Calls(r, view) == Calls(configDefinition, view) + [ModifierCall(mc.valueFactory, ModifierView(mc.prefix, view))]
    ensures ModifierCount(r) == ModifierCount(configDefinition) + 1 && BaseFactory(r) == BaseFactory(configDefinition)
  {
    Modified(mc.valueFactory, mc.prefix, configDefinition)
  }

  /**
   * The modified definition returns the modifier applied to what the previous
   * definition returns for the same configuration.
   */
  lemma ModifyAppliesModifierToPrevious<V>(mc: ModifyConfig, configDefinition: Def<V>, view: ConfView,
                                           run: (string, ConfView) -> V, transform: (string, ConfView, V) -> V)
    ensures Eval(Modify(mc, configDefinition), view, run, transform)
         == transform(mc.valueFactory, ModifierView(mc.prefix, view), Eval(configDefinition, view, run, transform))
  {
  }

  /** `ToConfigDefinition`: a modification cannot stand as a first definition; it always throws. */
  function ToConfigDefinition<V>(mc: ModifyConfig): (r: Result<Def<V>, ConfigDefinitionError>)
    ensures r == Err(NoPreviousDefinition(mc.key))
  {
    Err(NoPreviousDefinition(mc.key))
  }

  /**
   * Applying the transform to a table: the key's definition is replaced by its
   * modification, or, with no previous definition, `ToConfigDefinition` throws.
   */
  function Transform<V>(mc: ModifyConfig, entries: map<string, Def<V>>): (r: Result<map<string, Def<V>>, ConfigDefinitionError>)
    ensures r.Ok? <==> mc.key.id in entries
    ensures r.Err? ==> r.error == NoPreviousDefinition(mc.key)
    ensures r.Ok? ==> r.value == entries[mc.key.id := Modify(mc, entries[mc.key.id])]
  {
    if mc.key.id in entries then
      Ok(entries[mc.key.id := Modify(mc, entries[mc.key.id])])
    else
      match ToConfigDefinition<V>(mc)
      case Err(e) => Err(e)
      case Ok(d) => Ok(entries[mc.key.id := d])
  }

  /** Nesting twice keeps the outer prefix only for the configuration the modifier receives. */
  lemma NestTwiceKeepsOuterPrefix(mc: ModifyConfig, inner: string, outer: string)
    ensures Nest(Nest(mc, inner), outer).prefix == Some(outer)
    ensures Nest(Nest(mc, inner), outer).key.id == outer + inner + mc.key.id
  {
  }

  /** Prefixing with the directory prefix of `dir` stores under the key qualified by `dir`. */
  lemma NestUnderDirectory(mc: ModifyConfig, dir: seq<string>)
    ensures Nest(mc, DirPrefix(dir)).key == Qualified(dir, mc.key)
  {
    QualifiedIsPrefixed(dir, mc.key);
  }
}

=== FILE: nested_tasks.dfy ===
/**
 * Prefixed task lookup (Bud.Core/src/main/cs/Tasking/NestedTasks.cs): a view of
 * a task source in which every name is looked up under a prefix.
 *
 * What the innermost task source returns for a name is the parameter `get`.
 */
module NestedTasking {
  import opened Keys

  /** A task source: the innermost one, or a `NestedTasks` around another. */
  datatype TaskSource = Root | Nested(prefix: string, tasks: TaskSource)

  /** The constructor: stores the prefix followed by a single '/'. */
  function NewNestedTasks(prefix: string, tasks: TaskSource): (r: TaskSource)
    ensures r.Nested? && r.tasks == tasks
    ensures |r.prefix| == |prefix| + 1 && r.prefix[..|prefix|] == prefix && r.prefix[|prefix|] == '/'
  {
    Nested(prefix + "/", tasks)
  }

  /** The name the innermost source is asked for when `src` is asked for `taskName`. */
  function QueriedName(src: TaskSource, taskName: string): string {
    match src
    case Root => taskName
    case Nested(prefix, tasks) => QueriedName(tasks, prefix + taskName)
  }

  /** All stored prefixes, the innermost source's first. */
  function FullPrefix(src: TaskSource): string {
    match src
    case Root => ""
    case Nested(prefix, tasks) => FullPrefix(tasks) + prefix
  }

  /** A lookup through `src` asks the innermost source for the full prefix followed by the name. */
  lemma {:induction false} QueriedNameIsPrefixed(src: TaskSource, taskName: string)
    ensures QueriedName(src, taskName) == FullPrefix(src) + taskName
  {
    match src
    case Root =>
    case Nested(prefix, tasks) =>
      QueriedNameIsPrefixed(tasks, prefix + taskName);
      assert FullPrefix(tasks) + (prefix + taskName) == FullPrefix(tasks) + prefix + taskName;
  }

  /** `Get<T>(taskName)`: what the innermost source returns for the prefixed key, unchanged. */
  function Get<V>(src: TaskSource, taskName: Key, get: Key -> V): (r: V)
    ensures r == get(Key(FullPrefix(src) + taskName.id, taskName.valueType))
  {
    QueriedNameIsPrefixed(src, taskName.id);
    get(Key(QueriedName(src, taskName.id), taskName.valueType))
  }

  /** The untyped `Get(taskName)`: the same renaming. */
  function GetUntyped<V>(src: TaskSource, taskName: string, get: string -> V): (r: V)
    ensures r == get(FullPrefix(src) + taskName)
  {
    QueriedNameIsPrefixed(src, taskName);
    get(QueriedName(src, taskName))
  }

  /** Wrapping twice, with "a" outside "b", looks `n` up as "b/a/n". */
  lemma NestedTwice<V>(taskName: string, get: string -> V)
    ensures GetUntyped(NewNestedTasks("a", NewNestedTasks("b", Root)), taskName, get) == get("b/a/" + taskName)
  {
    assert FullPrefix(NewNestedTasks("a", NewNestedTasks("b", Root))) == "b/a/";
  }
}

=== FILE: optional.dfy ===
/**
 * The option struct of bud/Util/Option.cs: a value that may be absent.
 *
 * The C# struct always carries a `Value`; for `None` (the default struct) that
 * value is `default(T)`. Functions that look at `Value` regardless of presence
 * (equality and hashing) take that default as a parameter.
 */
module Optional {

  datatype Option<+T> = None | Some(value: T)

  /** `HasValue`. */
  predicate HasValue<T>(o: Option<T>) {
    o.Some?
  }

  /** `GetOrElse(T defaultValue)`. */
  function GetOrElse<T>(o: Option<T>, defaultValue: T): (r: T)
    ensures o.Some? ==> r == o.value
    ensures o.None? ==> r == defaultValue
  {
    if o.Some? then o.value else defaultValue
  }

  /** The `Value` property: the wrapped value, or `default(T)` for `None`, as `GetOrElse(default(T))`. */
  function RawValue<T>(o: Option<T>, default: T): T {
    GetOrElse(o, default)
  }

  /**
   * `GetOrElse(Func<T> defaultValue)`: the value, and whether the thunk was
   * invoked to get it. The thunk runs only for an empty option.
   */
  function GetOrElseLazy<T>(o: Option<T>, defaultValue: () -> T): (r: (T, bool))
    ensures r.1 <==> o.None?
    ensures r.0 == GetOrElse(o, defaultValue())
  {
    if o.Some? then (o.value, false) else (defaultValue(), true)
  }

  /** `OrElse(Option<T> defaultValue)`; `OrElse(T)` is this one with `Some(defaultValue)`. */
  function OrElse<T>(o: Option<T>, defaultValue: Option<T>): (r: Option<T>)
    ensures r.Some? <==> o.Some? || defaultValue.Some?
    ensures o.Some? ==> r == o
    ensures o.None? ==> r == defaultValue
  {
    if o.Some? then o else defaultValue
  }

  /** `None` is a unit of `OrElse` on both sides. */
  lemma OrElseNoneUnit<T>(o: Option<T>)
    ensures OrElse(None, o) == o && OrElse(o, None) == o
  {
  }

  /** Chained alternatives pick the first present option, however they are grouped. */
  lemma OrElseAssociative<T>(a: Option<T>, b: Option<T>, c: Option<T>)
    ensures OrElse(OrElse(a, b), c) == OrElse(a, OrElse(b, c))
  {
  }

  /** Falling back to a present value and then unwrapping is unwrapping with that value as default. */
  lemma OrElseThenGetOrElse<T>(o: Option<T>, d: T, other: T)
    ensures GetOrElse(OrElse(o, Some(d)), other) == GetOrElse(o, d)
  {
  }

  /**
   * `OrElse(Func<Option<T>>)`, and `OrElse(Func<T>)` through the implicit
   * conversion to `Some`: the result and whether the thunk was invoked.
   */
  function OrElseLazy<T>(o: Option<T>, defaultValue: () -> Option<T>): (r: (Option<T>, bool))
    ensures r.1 <==> o.None?
    ensures r.0 == OrElse(o, defaultValue())
  {
    if o.Some? then (o, false) else (defaultValue(), true)
  }

  /** `Map(mapFunc)`: `mapFunc` is applied only to a present value. */
  function Map<T, R>(o: Option<T>, mapFunc: T -> R): (r: Option<R>)
    ensures r.Some? <==> o.Some?
    ensures o.Some? ==> r.value == mapFunc(o.value)
  {
    if o.Some? then Some(mapFunc(o.value)) else None
  }

  /** `Equals(Option<T>)`: `HasValue` agrees and the (possibly default) values are equal. */
  function Equals<T(==)>(a: Option<T>, b: Option<T>, default: T): (r: bool)
    ensures r <==> a == b
  {
    HasValue(a) == HasValue(b) && RawValue(a, default) == RawValue(b, default)
  }

  /**
   * `GetHashCode`: `(HasValue.GetHashCode() * 397) ^ hash(Value)` in unchecked
   * 32-bit arithmetic; `true.GetHashCode()` is 1 and `false.GetHashCode()` is 0.
   */
  function Hash<T>(o: Option<T>, default: T, hash: T -> bv32): (r: bv32)
    ensures o.None? ==> r == hash(default)
    ensures o.Some? ==> r == 397 ^ hash(o.value)
  {
    (if HasValue(o) then 397 else 0) ^ hash(RawValue(o, default))
  }

  /** Equal options hash equally, whatever the element hash is. */
  lemma EqualOptionsHashEqually<T>(a: Option<T>, b: Option<T>, default: T, hash: T -> bv32)
    requires Equals(a, b, default)
    ensures Hash(a, default, hash) == Hash(b, default, hash)
  {
  }

  /** Any two `None`s are equal, whatever `default(T)` is. */
  lemma NonesAreEqual<T>(default: T)
    ensures Equals(None, None, default)
  {
  }

  /** `Map` commutes with `GetOrElse`: mapping then defaulting is defaulting then mapping. */
  lemma MapThenGetOrElse<T, R>(o: Option<T>, f: T -> R, defaultValue: T)
    ensures GetOrElse(Map(o, f), f(defaultValue)) == f(GetOrElse(o, defaultValue))
  {
  }

  /** `Map` preserves composition. */
  lemma MapComposes<T, U, R>(o: Option<T>, f: T -> U, g: U -> R)
    ensures Map(Map(o, f), g) == Map(o, x => g(f(x)))
  {
  }

  /** `Option.Gather(IEnumerable<Option<T>>)`: the values of the present options, in order. */
  function Gather<T>(s: seq<Option<T>>): (r: seq<T>)
    ensures |r| <= |s|
    ensures forall k :: 0 <= k < |r| ==> Some(r[k]) in s
    ensures forall i :: 0 <= i < |s| && s[i].Some? ==> s[i].value in r
  {
    if s == [] then []
    else (if s[0].Some? then [s[0].value] else []) + Gather(s[1..])
  }

  /** `Gather` distributes over concatenation, so it keeps the order of the present values. */
  lemma {:induction false} GatherAppend<T>(s: seq<Option<T>>, t: seq<Option<T>>)
    ensures Gather(s + t) == Gather(s) + Gather(t)
  {
    if s == [] {
      assert s + t == t;
    } else {
      assert (s + t)[1..] == s[1..] + t;
      GatherAppend(s[1..], t);
    }
  }

  /** Wrapping every element in `Some` and gathering gives the elements back. */
  lemma {:induction false} GatherAllPresent<T>(xs: seq<T>)
    ensures Gather(seq(|xs|, i requires 0 <= i < |xs| => Some(xs[i]))) == xs
  {
    var wrapped := seq(|xs|, i requires 0 <= i < |xs| => Some(xs[i]));
    if xs != [] {
      assert wrapped[1..] == seq(|xs[1..]|, i requires 0 <= i < |xs[1..]| => Some(xs[1..][i]));
      GatherAllPresent(xs[1..]);
    }
  }

  /** A sequence of `None`s gathers to nothing. */
  lemma {:induction false} GatherAllAbsent<T>(s: seq<Option<T>>)
    requires forall i :: 0 <= i < |s| ==> s[i].None?
    ensures Gather(s) == []
  {
    if s != [] {
      GatherAllAbsent(s[1..]);
    }
  }

  /** `Select(selector)`: the selector applied to each element, in order. */
  function Select<S, R>(s: seq<S>, selector: S -> R): (r: seq<R>)
    ensures |r| == |s| && forall i :: 0 <= i < |s| ==> r[i] == selector(s[i])
  {
    seq(|s|, i requires 0 <= i < |s| => selector(s[i]))
  }

  /** `Gather(selector)`: `Select(selector)` then `Gather()`. */
  function GatherWith<S, R>(s: seq<S>, selector: S -> Option<R>): (r: seq<R>)
    ensures r == Gather(Select(s, selector))
    ensures forall k :: 0 <= k < |r| ==> exists i :: 0 <= i < |s| && selector(s[i]) == Some(r[k])
    ensures forall i :: 0 <= i < |s| && selector(s[i]).Some? ==> selector(s[i]).value in r
  {
    var selected := Select(s, selector);
    var r := Gather(selected);
    assert forall k :: 0 <= k < |r| ==> exists i :: 0 <= i < |s| && selector(s[i]) == Some(r[k]) by {
      forall k | 0 <= k < |r| ensures exists i :: 0 <= i < |s| && selector(s[i]) == Some(r[k]) {
        var i :| 0 <= i < |selected| && selected[i] == Some(r[k]);
        assert selector(s[i]) == Some(r[k]);
      }
    }
    r
  }

  /** On one element, `Gather(selector)` gives the selected value if there is one, and nothing otherwise. */
  lemma GatherWithSingle<S, R>(x: S, selector: S -> Option<R>)
    ensures selector(x).Some? ==> GatherWith([x], selector) == [selector(x).value]
    ensures selector(x).None? ==> GatherWith([x], selector) == []
  {
    assert Select([x], selector) == [selector(x)];
    assert [selector(x)][1..] == [];
  }

  /**
   * `Gather(selector)` distributes over concatenation; with `GatherWithSingle`
   * this fixes the order and the multiplicity of the gathered values.
   */
  lemma GatherWithAppend<S, R>(s: seq<S>, t: seq<S>, selector: S -> Option<R>)
    ensures GatherWith(s + t, selector) == GatherWith(s, selector) + GatherWith(t, selector)
  {
    assert Select(s + t, selector) == Select(s, selector) + Select(t, selector);
    GatherAppend(Select(s, selector), Select(t, selector));
  }
}

=== FILE: paths.dfy ===
/**
 * The parts of Windows path handling (`System.IO.Path`) the reference
 * resolvers rely on: separators, `GetFileName`,
 * `GetFileNameWithoutExtension` and two-argument `Combine`.
 */
module Paths {

  /** The directory separator '\', the alternative '/', and the volume separator ':'. */
  predicate IsSeparator(c: char) {
    c == '\\' || c == '/' || c == ':'
  }

  /** A path with no separator in it: a bare file name. */
  predicate IsBareName(s: string) {
    forall i :: 0 <= i < |s| ==> !IsSeparator(s[i])
  }

  /** `GetFileName`: what follows the last separator. */
  function FileName(path: string): (r: string)
    ensures |r| <= |path| && IsBareName(r)
    ensures r == path[|path| - |r|..]
  {
    if path == [] then []
    else if IsSeparator(path[|path| - 1]) then []
    else FileName(path[..|path| - 1]) + [path[|path| - 1]]
  }

  /** The part of `s` before its last '.', if it has one. */
  function BeforeLastDot(s: string): (r: string)
    requires '.' in s
    ensures r < s && s[|r|] == '.' && '.' !in s[|r| + 1..]
  {
    if s[|s| - 1] == '.' then s[..|s| - 1]
    else
      assert '.' in s[..|s| - 1] by {
        var i :| 0 <= i < |s| && s[i] == '.';
        assert s[..|s| - 1][i] == '.';
      }
      BeforeLastDot(s[..|s| - 1])
  }

  /** `GetFileNameWithoutExtension`: the file name up to its last '.', or all of it. */
  function FileNameWithoutExtension(path: string): string {
    var name := FileName(path);
    if '.' in name then BeforeLastDot(name) else name
  }

  /** The file name of a path ending in a separator and a bare name is that name. */
  lemma {:induction false} FileNameAfterSeparator(dir: string, sep: char, name: string)
    requires IsSeparator(sep) && IsBareName(name)
    ensures FileName(dir + [sep] + name) == name
    decreases |name|
  {
    var p := dir + [sep] + name;
    if name == [] {
      assert p[|p| - 1] == sep;
    } else {
      assert p[..|p| - 1] == dir + [sep] + name[..|name| - 1];
      FileNameAfterSeparator(dir, sep, name[..|name| - 1]);
      assert name[..|name| - 1] + [name[|name| - 1]] == name;
    }
  }

  /** The extension after the last '.' is dropped. */
  lemma {:induction false} BeforeLastDotOfExtension(name: string, ext: string)
    requires '.' !in ext
    ensures BeforeLastDot(name + "." + ext) == name
    decreases |ext|
  {
    var s := name + "." + ext;
    if ext == [] {
      assert s[..|s| - 1] == name;
    } else {
      assert s[..|s| - 1] == name + "." + ext[..|ext| - 1];
      assert forall c :: c in ext[..|ext| - 1] ==> c in ext;
      BeforeLastDotOfExtension(name, ext[..|ext| - 1]);
    }
  }

  /**
   * `dir\name.ext`, with a bare name and an extension without '.', has the
   * file name without extension `name`.
   */
  lemma FileNameWithoutExtensionRoundTrip(dir: string, name: string, ext: string)
    requires IsBareName(name) && IsBareName(ext) && '.' !in ext
    ensures FileNameWithoutExtension(dir + "\\" + name + "." + ext) == name
  {
    var bare := name + "." + ext;
    BareNamesConcatenate(name, ".");
    BareNamesConcatenate(name + ".", ext);
    assert dir + "\\" + name + "." + ext == dir + ['\\'] + bare;
    FileNameAfterSeparator(dir, '\\', bare);
    assert FileName(dir + "\\" + name + "." + ext) == bare;
    assert '.' in bare by { assert bare[|name|] == '.'; }
    BeforeLastDotOfExtension(name, ext);
  }

  /** Joining two bare names gives a bare name. */
  lemma BareNamesConcatenate(a: string, b: string)
    requires IsBareName(a) && IsBareName(b)
    ensures IsBareName(a + b)
  {
    forall i | 0 <= i < |a + b|
      ensures !IsSeparator((a + b)[i])
    {
      if i >= |a| {
        assert (a + b)[i] == b[i - |a|];
      }
    }
  }

  /** A rooted path: it starts with a separator or a drive ("C:"). */
  predicate IsRooted(path: string) {
    (|path| >= 1 && (path[0] == '\\' || path[0] == '/')) || (|path| >= 2 && path[1] == ':')
  }

  /**
   * `Combine(dir, name)`: `dir` unchanged when `name` is empty; `name` alone
   * when it is rooted or `dir` is empty; otherwise `dir`, a '\' unless `dir`
   * already ends with a separator, and `name`.
   */
  function Combine(dir: string, name: string): (r: string)
    ensures name == [] ==> r == dir
    ensures !IsRooted(name) ==> |r| >= |dir| + |name| && dir <= r && r[|r| - |name|..] == name
    ensures IsRooted(name) ==> r == name
  {
    if name == [] then dir
    else if IsRooted(name) || dir == [] then name
    else if IsSeparator(dir[|dir| - 1]) then dir + name
    else dir + "\\" + name
  }
}

=== FILE: process_builder.dfy ===
/**
 * Command-line argument building (Bud.Core/src/main/cs/Cli/ProcessBuilder.cs):
 * a builder that appends quoted arguments, separated by single spaces, to its
 * argument text in place. A parameterised argument is its head directly
 * followed by its parameters joined with commas, all inside one pair of quotes.
 */
module Cli {

  /** The parameters joined with ','. */
  function JoinParams(argumentParams: seq<string>): string {
    if |argumentParams| == 0 then ""
    else if |argumentParams| == 1 then argumentParams[0]
    else argumentParams[0] + "," + JoinParams(argumentParams[1..])
  }

  /** Joining one more parameter appends ',' and that parameter. */
  lemma {:induction false} JoinParamsSnoc(argumentParams: seq<string>, param: string)
    requires |argumentParams| >= 1
    ensures JoinParams(argumentParams + [param]) == JoinParams(argumentParams) + "," + param
    decreases |argumentParams|
  {
    if |argumentParams| == 1 {
      assert (argumentParams + [param])[1..] == [param];
    } else {
      assert (argumentParams + [param])[1..] == argumentParams[1..] + [param];
      JoinParamsSnoc(argumentParams[1..], param);
    }
  }

  /** One argument as it appears on the command line: in double quotes, head then joined parameters. */
  function Quoted(argumentHead: string, argumentParams: seq<string>): string {
    "\"" + argumentHead + JoinParams(argumentParams) + "\""
  }

  /** The argument text after appending one argument: a space first unless the text is empty. */
  function Appended(text: string, argumentHead: string, argumentParams: seq<string>): string {
    text + (if |text| > 0 then " " else "") + Quoted(argumentHead, argumentParams)
  }

  /** The argument text after appending each plain argument in turn. */
  function AppendedAll(text: string, arguments: seq<string>): string
    decreases |arguments|
  {
    if arguments == [] then text
    else Appended(AppendedAll(text, arguments[..|arguments| - 1]), arguments[|arguments| - 1], [])
  }

  /** Appending one argument adds the separator, the opening quote and the head, then the joined parameters and the closing quote. */
  lemma AppendedUnfolds(text: string, argumentHead: string, argumentParams: seq<string>)
    ensures Appended(text, argumentHead, argumentParams)
         == text + (if |text| > 0 then " " else "") + "\"" + argumentHead + JoinParams(argumentParams) + "\""
  {
  }

  /** `ProcessBuilder`: the executable and the argument text built so far. */
  class ProcessBuilder {
    const executablePath: string
    var arguments: string

    /** A builder for `executablePath` with no arguments. */
    constructor (executablePath: string)
      ensures this.executablePath == executablePath && arguments == ""
    {
      this.executablePath := executablePath;
      arguments := "";
    }

    /** `Executable(executablePath)`: a new builder. */
    static method Executable(executablePath: string) returns (r: ProcessBuilder)
      ensures fresh(r) && r.executablePath == executablePath && r.arguments == ""
    {
      r := new ProcessBuilder(executablePath);
    }

    /** `Arguments`: the argument text. */
    function Arguments(): string
      reads this
    {
      arguments
    }

    /**
     * `AddParamArgument(argumentHead, argumentParams)`: appends a space unless
     * the text is empty, then the quoted head and comma-joined parameters;
     * returns the builder itself.
     */
    method AddParamArgument(argumentHead: string, argumentParams: seq<string>) returns (self: ProcessBuilder)
      modifies this
      ensures self == this
      ensures arguments == Appended(old(arguments), argumentHead, argumentParams)
    {
      if |arguments| > 0 {
        arguments := arguments + " ";
      }
      arguments := arguments + "\"" + argumentHead;
      ghost var start := arguments;
      ghost var joined := "";
      if |argumentParams| > 0 {
        arguments := arguments + argumentParams[0];
        joined := argumentParams[0];
        var i := 1;
        while i < |argumentParams|
          invariant 1 <= i <= |argumentParams|
          invariant joined == JoinParams(argumentParams[..i])
          invariant arguments == start + joined
        {
          JoinParamsSnoc(argumentParams[..i], argumentParams[i]);
          assert argumentParams[..i + 1] == argumentParams[..i] + [argumentParams[i]];
          arguments := arguments + "," + argumentParams[i];
          joined := joined + "," + argumentParams[i];
          i := i + 1;
        }
        assert argumentParams[..i] == argumentParams;
      }
      assert joined == JoinParams(argumentParams);
      assert arguments == start + joined;
      arguments := arguments + "\"";
      AppendedUnfolds(old(arguments), argumentHead, argumentParams);
      self := this;
    }

    /** `AddArgument(argument)`: appends the argument in quotes. */
    method AddArgument(argument: string) returns (self: ProcessBuilder)
      modifies this
      ensures self == this
      ensures arguments == Appended(old(arguments), argument, [])
    {
      self := AddParamArgument(argument, []);
    }

    /** `AddArguments(arguments)`: `AddArgument` for each argument, in order. */
    method AddArguments(newArguments: seq<string>) returns (self: ProcessBuilder)
      modifies this
      ensures self == this
      ensures arguments == AppendedAll(old(arguments), newArguments)
    {
      for i := 0 to |newArguments|
        invariant arguments == AppendedAll(old(arguments), newArguments[..i])
      {
        assert newArguments[..i + 1][..i] == newArguments[..i];
        var _ := AddArgument(newArguments[i]);
      }
      assert newArguments[..|newArguments|] == newArguments;
      self := this;
    }
  }

  /** Appending never rewrites what is there: the old text is a prefix of the new. */
  lemma AppendedExtends(text: string, argumentHead: string, argumentParams: seq<string>)
    ensures text <= Appended(text, argumentHead, argumentParams)
    ensures |Appended(text, argumentHead, argumentParams)| > |text|
  {
  }

  /** Adding argument lists one after another is adding their concatenation. */
  lemma {:induction false} AppendedAllAppend(text: string, xs: seq<string>, ys: seq<string>)
    ensures AppendedAll(text, xs + ys) == AppendedAll(AppendedAll(text, xs), ys)
    decreases |ys|
  {
    if ys == [] {
      assert xs + ys == xs;
    } else {
      assert (xs + ys)[..|xs + ys| - 1] == xs + ys[..|ys| - 1];
      AppendedAllAppend(text, xs, ys[..|ys| - 1]);
    }
  }

  /** Adding arguments only ever extends the text. */
  lemma {:induction false} AppendedAllExtends(text: string, xs: seq<string>)
    ensures text <= AppendedAll(text, xs)
    decreases |xs|
  {
    if xs != [] {
      AppendedAllExtends(text, xs[..|xs| - 1]);
      AppendedExtends(AppendedAll(text, xs[..|xs| - 1]), xs[|xs| - 1], []);
    }
  }

  /** A plain argument and a parameterised one: `"a" "/r:x,y"`. */
  lemma TwoArgumentsExample()
    ensures Appended(Appended("", "a", []), "/r:", ["x", "y"]) == "\"a\" \"/r:x,y\""
  {
    assert JoinParams(["x", "y"]) == "x,y";
  }
}

=== FILE: project.dfy ===
/**
 * A project of the settings design (budApi/Plugins/Projects/Project.cs): an
 * id and a base directory, compared by id alone.
 *
 * The `object` passed to `Equals` is an `Option<Project>`, `None` standing for
 * null; `runtimeType` is the run-time type of the instance. `string.GetHashCode`
 * is the parameter `hash`.
 */
module Projects {
  import opened Optional
  import opened Failures

  /** The run-time type name of instances built by the constructor. */
  const ProjectType: string := "Project"

  datatype Project = Project(runtimeType: string, id: string, baseDir: string)

  /** The exception `Equals` raises when it dereferences null. */
  datatype EqualsError = NullReference

  /** `new Project(id, baseDir)`. */
  function New(id: string, baseDir: string): (r: Project)
    ensures r.id == id && r.baseDir == baseDir && r.runtimeType == ProjectType
  {
    Project(ProjectType, id, baseDir)
  }

  /** `GetHashCode`: the hash of the id. */
  function Hash(p: Project, hash: string -> bv32): bv32 {
    hash(p.id)
  }

  /**
   * `Equals(object)` as written: it asks the argument for its run-time type
   * first, so a null argument raises instead of answering false.
   */
  function EqualsAsWritten(p: Project, other: Option<Project>): (r: Result<bool, EqualsError>)
    ensures other.None? <==> r.Err?
  {
    match other
    case None => Err(NullReference)
    case Some(q) => Ok(q.runtimeType == p.runtimeType && p.id == q.id)
  }

  /** Comparing any project with null raises. */
  lemma EqualsNullRaises(p: Project)
    ensures EqualsAsWritten(p, None) == Err(NullReference)
  {
  }

  /**
   * `Equals(object)` as evidently intended: false for null, and otherwise the
   * same run-time type and the same id; the base directory is not compared.
   */
  function Equals(p: Project, other: Option<Project>): (r: bool)
    ensures other.None? ==> !r
    ensures other.Some? ==> EqualsAsWritten(p, other) == Ok(r)
    ensures other.Some? ==> (r <==> other.value.(baseDir := p.baseDir) == p)
  {
    match other
    case None => false
    case Some(q) => q.runtimeType == p.runtimeType && p.id == q.id
  }

  /** Equality of projects is reflexive, symmetric and transitive. */
  lemma EqualsIsEquivalence(a: Project, b: Project, c: Project)
    ensures Equals(a, Some(a))
    ensures Equals(a, Some(b)) <==> Equals(b, Some(a))
    ensures Equals(a, Some(b)) && Equals(b, Some(c)) ==> Equals(a, Some(c))
  {
  }

  /** Projects of the same type are equal exactly when their ids are, whatever their base directories. */
  lemma EqualsIgnoresBaseDir(id: string, id': string, baseDir: string, baseDir': string)
    ensures Equals(New(id, baseDir), Some(New(id', baseDir'))) <==> id == id'
  {
  }

  /** A project of another run-time type is never equal, even with the same id and base directory. */
  lemma OtherTypeIsUnequal(p: Project, q: Project)
    requires q.runtimeType != p.runtimeType
    ensures !Equals(p, Some(q))
    ensures EqualsAsWritten(p, Some(q)) == Ok(false)
  {
  }

  /** Equal projects have equal hash codes. */
  lemma EqualProjectsHashEqually(a: Project, b: Project, hash: string -> bv32)
    requires Equals(a, Some(b))
    ensures Hash(a, hash) == Hash(b, hash)
  {
  }

  /** `ToString`: "Project(id, baseDir)". */
  function ToString(p: Project): (r: string)
    ensures |r| == |p.id| + |p.baseDir| + 11
  {
    "Project(" + p.id + ", " + p.baseDir + ")"
  }

  /** Where the id and the base directory sit in the rendering. */
  lemma ToStringParts(p: Project)
    ensures ToString(p)[8..8 + |p.id|] == p.id
    ensures ToString(p)[10 + |p.id|..|ToString(p)| - 1] == p.baseDir
  {
  }

  /**
   * Two renderings with ids of the same length are equal only for equal ids
   * and equal base directories.
   */
  lemma ToStringDeterminesIdAndBaseDir(a: Project, b: Project)
    requires |a.id| == |b.id| && ToString(a) == ToString(b)
    ensures a.id == b.id && a.baseDir == b.baseDir
  {
    ToStringParts(a);
    ToStringParts(b);
  }
}

=== FILE: scope_tree.dfy ===
/**
 * The scope tree shared by both scope designs (Graph/Scope.cs and
 * budGraph/Scope.cs): every scope is the root `Global` or a child with an id
 * and a parent. The root's parent is itself; its id is "Global" and its depth 1.
 *
 * The two designs have the same constructors, `Equals`, `GetHashCode` and
 * `ToString`; they are defined here once. They differ in `IsGlobal` and `In`
 * (modules `GraphScopes` and `BudGraphScopes`).
 */
module ScopeTree {

  /** A scope: the root, or a child scope with its id and its parent. */
  datatype Scope = Global | Child(id: string, parent: Scope)

  /** The id of the root scope. */
  const GlobalId: string := "Global"

  /** `Id`. */
  function Id(s: Scope): string {
    if s.Global? then GlobalId else s.id
  }

  /** `Parent`: the root is its own parent. */
  function Parent(s: Scope): (r: Scope)
    ensures s.Global? <==> r == s
  {
    if s.Global? then s else s.parent
  }

  /** The depth: 1 for the root, one more than the parent's for a child. */
  function Depth(s: Scope): (r: nat)
    ensures r >= 1
    ensures r == 1 <==> s.Global?
  {
    if s.Global? then 1 else Depth(s.parent) + 1
  }

  /** `new Scope(id, parent)` with a parent. */
  function WithParent(id: string, parent: Scope): (r: Scope)
    ensures Parent(r) == parent && Id(r) == id && Depth(r) == Depth(parent) + 1
  {
    Child(id, parent)
  }

  /** `new Scope(id)`: a child of the root. */
  function New(id: string): (r: Scope)
    ensures r == WithParent(id, Global) && Depth(r) == 2
  {
    WithParent(id, Global)
  }

  /** The ids from the root down to `s`. */
  function Ids(s: Scope): (r: seq<string>)
    ensures |r| == Depth(s)
    ensures r[0] == GlobalId && r[|r| - 1] == Id(s)
  {
    if s.Global? then [GlobalId] else Ids(s.parent) + [s.id]
  }

  /** A scope is determined by its chain of ids. */
  lemma {:induction false} IdsInjective(a: Scope, b: Scope)
    requires Ids(a) == Ids(b)
    ensures a == b
  {
    if a.Child? && b.Child? {
      var n := |Ids(a)|;
      assert Ids(a.parent) == Ids(a)[..n - 1];
      assert Ids(b.parent) == Ids(b)[..n - 1];
      IdsInjective(a.parent, b.parent);
    }
  }

  /**
   * `Equals(Scope)`: true at once for the (single) root instance; otherwise
   * false on different depths, and else the ids and the parents are compared.
   * It is structural equality: clones built independently are equal.
   */
  function Equals(a: Scope, b: Scope): (r: bool)
    ensures r <==> a == b
    decreases a
  {
    if a.Global? && b.Global? then true
    else if Depth(a) != Depth(b) then false
    else Id(a) == Id(b) && Equals(a.parent, Parent(b))
  }

  /** Equality of scopes is the equality of their id chains. */
  lemma EqualsIffSameIds(a: Scope, b: Scope)
    ensures Equals(a, b) <==> Ids(a) == Ids(b)
  {
    if Ids(a) == Ids(b) {
      IdsInjective(a, b);
    }
  }

  /** The hash seed of the root, -1498327287 as a 32-bit two's-complement pattern. */
  const RootSeed: bv32 := 2796640009

  /**
   * `GetHashCode`: the parent's hash (the seed for the root) XOR the hash of
   * the id, with `hash` standing for `string.GetHashCode`.
   */
  function Hash(s: Scope, hash: string -> bv32): bv32 {
    if s.Global? then RootSeed ^ hash(GlobalId) else Hash(s.parent, hash) ^ hash(s.id)
  }

  /** The seed XOR-folded with the hash of each id in turn. */
  function FoldHash(ids: seq<string>, hash: string -> bv32): bv32 {
    if ids == [] then RootSeed else FoldHash(ids[..|ids| - 1], hash) ^ hash(ids[|ids| - 1])
  }

  /** The hash is a function of the id chain alone. */
  lemma {:induction false} HashFoldsIds(s: Scope, hash: string -> bv32)
    ensures Hash(s, hash) == FoldHash(Ids(s), hash)
  {
    if s.Global? {
      assert [GlobalId][..0] == [];
    } else {
      HashFoldsIds(s.parent, hash);
      assert Ids(s)[..|Ids(s)| - 1] == Ids(s.parent);
    }
  }

  /** Equal scopes have equal hash codes. */
  lemma EqualScopesHashEqually(a: Scope, b: Scope, hash: string -> bv32)
    requires Equals(a, b)
    ensures Hash(a, hash) == Hash(b, hash)
  {
  }

  /** `AppendAsString`: the parent's rendering, ':' and the id; the root renders as its id. */
  function AppendAsString(s: Scope): string {
    if s.Global? then Id(s) else AppendAsString(s.parent) + ":" + Id(s)
  }

  /** `ToString`. */
  function ToString(s: Scope): string {
    if s.Global? then Id(s) else AppendAsString(s)
  }

  /** The ids joined with ':' (a non-empty list). */
  function JoinColon(ids: seq<string>): string
    requires |ids| >= 1
  {
    if |ids| == 1 then ids[0] else ids[0] + ":" + JoinColon(ids[1..])
  }

  /** Joining one more id appends ':' and that id. */
  lemma {:induction false} JoinColonSnoc(ids: seq<string>, id: string)
    requires |ids| >= 1
    ensures JoinColon(ids + [id]) == JoinColon(ids) + ":" + id
    decreases |ids|
  {
    if |ids| == 1 {
      assert (ids + [id])[1..] == [id];
    } else {
      assert (ids + [id])[1..] == ids[1..] + [id];
      JoinColonSnoc(ids[1..], id);
    }
  }

  /** `AppendAsString` joins the ids from the root down with ':'. */
  lemma {:induction false} AppendAsStringJoinsIds(s: Scope)
    ensures AppendAsString(s) == JoinColon(Ids(s))
  {
    if s.Child? {
      AppendAsStringJoinsIds(s.parent);
      JoinColonSnoc(Ids(s.parent), s.id);
      assert Ids(s) == Ids(s.parent) + [s.id];
    }
  }

  /** `ToString` joins the ids from the root down with ':'. */
  lemma ToStringJoinsIds(s: Scope)
    ensures ToString(s) == JoinColon(Ids(s))
  {
    AppendAsStringJoinsIds(s);
  }
}

=== FILE: set_conf.dfy ===
/**
 * The unconditional definition instruction (bud/Configuration/SetConf.cs):
 * store, under the key in the current directory of a directory dictionary, a
 * definition that runs the value factory on a configuration scoped to that
 * directory.
 *
 * A `DirectoryDictionary` is modelled as the table it writes to together with
 * its `CurrentDirectory`; its `Set(key, definition)` stores under the key
 * qualified by the current directory (`Keys.Qualified`).
 */
module SetConfig {
  import opened Keys
  import opened Definitions

  /** `SetConf<T>`: the key and the value factory. */
  datatype SetConf<V> = SetConf(key: Key, valueFactory: Factory<V>)

  /** The table after defining `key` in `currentDirectory` with `valueFactory`. */
  function Defined<V>(entries: map<string, Def<V>>, currentDirectory: seq<string>, key: Key, valueFactory: Factory<V>): map<string, Def<V>> {
    entries[Qualified(currentDirectory, key).id := Scoped(valueFactory, currentDirectory)]
  }

  /** `SetConf.DefineConfIn`: writes the scope-capturing definition, whether or not the key was defined. */
  method DefineConfIn<V>(table: DefinitionTable<V>, currentDirectory: seq<string>, valueFactory: Factory<V>, key: Key)
    modifies table
    ensures table.entries == Defined(old(table.entries), currentDirectory, key, valueFactory)
  {
    var confDefinition := Scoped(valueFactory, currentDirectory);
    table.Put(Qualified(currentDirectory, key).id, confDefinition);
  }

  /** `SetConf<T>.ApplyIn`: defines the builder's own key with its own factory. */
  method ApplyIn<V>(setConf: SetConf<V>, table: DefinitionTable<V>, currentDirectory: seq<string>)
    modifies table
    ensures table.entries == Defined(old(table.entries), currentDirectory, setConf.key, setConf.valueFactory)
  {
    DefineConfIn(table, currentDirectory, setConf.valueFactory, setConf.key);
  }

  /**
   * Set overwrites: afterwards the qualified key holds the new definition,
   * whatever it held before, and every other path is unchanged.
   */
  lemma DefinedOverwrites<V>(entries: map<string, Def<V>>, currentDirectory: seq<string>, key: Key, valueFactory: Factory<V>)
    ensures var path := Qualified(currentDirectory, key).id;
            var after := Defined(entries, currentDirectory, key, valueFactory);
            && after.Keys == entries.Keys + {path}
            && after[path] == Scoped(valueFactory, currentDirectory)
            && forall p :: p in entries && p != path ==> after[p] == entries[p]
  {
  }

  /** Defining the same key twice keeps only the second definition. */
  lemma SecondSetWins<V>(entries: map<string, Def<V>>, currentDirectory: seq<string>, key: Key, first: Factory<V>, second: Factory<V>)
    ensures Defined(Defined(entries, currentDirectory, key, first), currentDirectory, key, second)
         == Defined(entries, currentDirectory, key, second)
  {
  }

  /**
   * Each invocation of the stored definition calls the value factory exactly
   * once, and on a configuration scoped to the directory current when the
   * definition was made, whatever configuration the invocation receives.
   */
  lemma DefinitionCallsFactoryOnceInItsDirectory<V>(entries: map<string, Def<V>>, currentDirectory: seq<string>, key: Key, valueFactory: Factory<V>, view: ConfView)
    ensures Calls(Defined(entries, currentDirectory, key, valueFactory)[Qualified(currentDirectory, key).id], view)
         == [FactoryCall(valueFactory, ScopedTo(currentDirectory, view))]
  {
  }
}

=== FILE: tasks.dfy ===
/**
 * The task table (Bud.Core/src/main/cs/Tasking/Tasks.cs): an immutable map from
 * task names to definitions, each tagged with the runtime type its task
 * returns. A redefinition may not change that type, and a modification needs
 * an existing definition, around which it is composed.
 *
 * Tasks and modifier tasks are delegates; here they are named, and what a
 * named task computes is an interpretation passed to `Evaluate`.
 */
module Tasking {
  import opened Failures
  import opened Optional
  import opened Keys

  /** A task delegate: a named task, or a modifier wrapped around an original task. */
  datatype TaskBody = Task(name: string) | ModifiedTask(modifier: string, original: TaskBody)

  /** `TaskDefinition<T>`: its `ReturnType` (the tag of `T`) and its `Task`. */
  datatype TaskDefinition = TaskDefinition(returnType: TypeTag, task: TaskBody)

  /** `Tasks`: the immutable dictionary of task definitions. */
  datatype Tasks = Tasks(taskDefinitions: map<string, TaskDefinition>)

  /** `TaskTypeOverrideException` and `TaskUndefinedException`. */
  datatype TaskError =
    | TaskTypeOverride(taskName: string, previousType: TypeTag, newType: TypeTag)
    | TaskUndefined(taskName: string)

  /** `Tasks.Empty`: no task is defined. */
  function Empty(): (r: Tasks)
    ensures forall name :: name !in r.taskDefinitions
  {
    Tasks(map[])
  }

  /** `AssertTaskTypeNotOverridden`: the exception when the new type differs from the previous definition's. */
  function AssertTaskTypeNotOverridden(taskName: string, returnType: TypeTag, previousTaskDefinition: TaskDefinition): (r: Option<TaskError>)
    ensures r.None? <==> previousTaskDefinition.returnType == returnType
    ensures r.Some? ==> r.value == TaskTypeOverride(taskName, previousTaskDefinition.returnType, returnType)
  {
    if previousTaskDefinition.returnType != returnType then
      Some(TaskTypeOverride(taskName, previousTaskDefinition.returnType, returnType))
    else
      None
  }

  /**
   * `Set<T>(taskName, task)`: a new table with the name mapped to the task,
   * unless the name is defined with another return type.
   */
  function Set(tasks: Tasks, taskName: string, returnType: TypeTag, task: string): (r: Result<Tasks, TaskError>)
    ensures r.Ok? <==> taskName !in tasks.taskDefinitions || tasks.taskDefinitions[taskName].returnType == returnType
    ensures r.Ok? ==> r.value.taskDefinitions == tasks.taskDefinitions[taskName := TaskDefinition(returnType, Task(task))]
    ensures r.Err? ==> r.error == TaskTypeOverride(taskName, tasks.taskDefinitions[taskName].returnType, returnType)
  {
    if taskName in tasks.taskDefinitions && AssertTaskTypeNotOverridden(taskName, returnType, tasks.taskDefinitions[taskName]).Some? then
      Err(AssertTaskTypeNotOverridden(taskName, returnType, tasks.taskDefinitions[taskName]).value)
    else
      Ok(Tasks(tasks.taskDefinitions[taskName := TaskDefinition(returnType, Task(task))]))
  }

  /**
   * `Modify<T>(taskName, task)`: a new table with the name mapped to the
   * modifier composed around the previous task; it throws when the name is
   * undefined or defined with another return type.
   */
  function Modify(tasks: Tasks, taskName: string, returnType: TypeTag, modifier: string): (r: Result<Tasks, TaskError>)
    ensures r.Ok? <==> taskName in tasks.taskDefinitions && tasks.taskDefinitions[taskName].returnType == returnType
    ensures taskName !in tasks.taskDefinitions ==> r == Err(TaskUndefined(taskName))
    ensures taskName in tasks.taskDefinitions && r.Err? ==>
              r.error == TaskTypeOverride(taskName, tasks.taskDefinitions[taskName].returnType, returnType)
    ensures r.Ok? ==> r.value.taskDefinitions == tasks.taskDefinitions[taskName :=
              TaskDefinition(returnType, ModifiedTask(modifier, tasks.taskDefinitions[taskName].task))]
  {
    if taskName in tasks.taskDefinitions then
      var previousTaskDefinition := tasks.taskDefinitions[taskName];
      match AssertTaskTypeNotOverridden(taskName, returnType, previousTaskDefinition)
      case Some(e) => Err(e)
      case None => Ok(Tasks(tasks.taskDefinitions[taskName := TaskDefinition(returnType, ModifiedTask(modifier, previousTaskDefinition.task))]))
    else
      Err(TaskUndefined(taskName))
  }

  /** `TryGetTask`: whether the name is defined, and its definition (null when it is not). */
  function TryGetTask(tasks: Tasks, taskName: string): (r: (bool, Option<TaskDefinition>))
    ensures r.0 <==> taskName in tasks.taskDefinitions
    ensures r.0 ==> r.1 == Some(tasks.taskDefinitions[taskName])
    ensures !r.0 ==> r.1 == None
  {
    if taskName in tasks.taskDefinitions then (true, Some(tasks.taskDefinitions[taskName])) else (false, None)
  }

  /** One delegate invocation while a task runs. */
  datatype Run = RunTask(name: string) | RunModifier(modifier: string)

  /** The delegates one invocation of a task body runs, in order: the original's before the modifier. */
  function Runs(body: TaskBody): seq<Run> {
    match body
    case Task(name) => [RunTask(name)]
    case ModifiedTask(modifier, original) => Runs(original) + [RunModifier(modifier)]
  }

  /** The task at the core of a body. */
  function BaseTask(body: TaskBody): string {
    match body
    case Task(name) => name
    case ModifiedTask(_, original) => BaseTask(original)
  }

  /**
   * What a task body returns, given what the named tasks return (`run`) and
   * what a modifier returns for the original's result (`transform`).
   */
  function Evaluate<V>(body: TaskBody, run: string -> V, transform: (string, V) -> V): V {
    match body
    case Task(name) => run(name)
    case ModifiedTask(modifier, original) => transform(modifier, Evaluate(original, run, transform))
  }

  /**
   * However often a task is modified, one invocation runs the original task
   * exactly once, first; every later delegate is a modifier.
   */
  lemma {:induction false} OriginalRunsOnceFirst(body: TaskBody)
    ensures |Runs(body)| >= 1 && Runs(body)[0] == RunTask(BaseTask(body))
    ensures forall i :: 1 <= i < |Runs(body)| ==> Runs(body)[i].RunModifier?
  {
    if body.ModifiedTask? {
      OriginalRunsOnceFirst(body.original);
    }
  }

  /** The empty table defines no task. */
  lemma EmptyDefinesNothing(taskName: string)
    ensures TryGetTask(Empty(), taskName) == (false, None)
  {
  }

  /**
   * After a successful `Set` the name yields the new definition and every
   * other name yields what it yielded before.
   */
  lemma SetThenGet(tasks: Tasks, taskName: string, returnType: TypeTag, task: string, other: string)
    requires Set(tasks, taskName, returnType, task).Ok?
    ensures TryGetTask(Set(tasks, taskName, returnType, task).value, taskName) == (true, Some(TaskDefinition(returnType, Task(task))))
    ensures other != taskName ==> TryGetTask(Set(tasks, taskName, returnType, task).value, other) == TryGetTask(tasks, other)
  {
  }

  /**
   * Defining a task and then modifying it gives a task that runs the original
   * once and passes its result to the modifier.
   */
  lemma SetThenModify<V>(tasks: Tasks, taskName: string, returnType: TypeTag, task: string, modifier: string,
                         run: string -> V, transform: (string, V) -> V)
    requires Set(tasks, taskName, returnType, task).Ok?
    ensures var r := Modify(Set(tasks, taskName, returnType, task).value, taskName, returnType, modifier);
            && r.Ok?
            && Runs(r.value.taskDefinitions[taskName].task) == [RunTask(task), RunModifier(modifier)]
            && Evaluate(r.value.taskDefinitions[taskName].task, run, transform) == transform(modifier, run(task))
  {
  }

  /** Modifying a task first defined with another type fails, and so does redefining it. */
  lemma TypeIsFixedOnceDefined(tasks: Tasks, taskName: string, t1: TypeTag, t2: TypeTag, task: string, other: string)
    requires Set(tasks, taskName, t1, task).Ok? && t1 != t2
    ensures Set(Set(tasks, taskName, t1, task).value, taskName, t2, other) == Err(TaskTypeOverride(taskName, t1, t2))
    ensures Modify(Set(tasks, taskName, t1, task).value, taskName, t2, other) == Err(TaskTypeOverride(taskName, t1, t2))
  {
  }
}
